=== FILE: README.md ===
# DynamicFormBuilder validation and state core, in Dafny

This project models the engine inside the `DynamicFormBuilder` React component. The engine decides three things:
- which keystrokes a field accepts;
- what value gets stored;
- whether each field and the whole form are valid.

It also keeps track of which fields are visible and which carry anonymised input names. Each operation is a pure function over an explicit component state. That state, `Schema.FormState`, holds:
- `form`: the stored values;
- `validationErrors`: the error map;
- `randomisedFields`: the anonymised names;
- `canRender`: the names of the fields that may be rendered.

The modules follow the component's structure:

- `JsValues` (`js_value.dfy`) defines the JavaScript values the engine handles: `undefined`, `null`, booleans, numbers, strings, arrays and objects. It also defines the coercions the source relies on: truthiness, `== undefined`, ToString (which `RegExp.prototype.test` applies) and `.length`. Some engine behaviour is not reimplemented: regular-expression matching, the e-mail pattern, `==` and `<`. Those are the fields of an `Engine` record. `Standard(engine)` fixes how `==` and `<` behave on the simple cases.
- `Registries` (`registries.dfy`) holds the rule tables. There are two filters (`numeric`, `decimal`), two transformers (`uppercase`, `lowercase`) and five validators (`required`, `match`, `email`, `size`, `decimal`). A call into a table either returns a verdict or throws.
- `Dispatch` (`dispatch.dfy`) holds `applyFilter`, `applyTransformer` and `validateInput`. Each one dispatches on the runtime shape of a spec: a function, a RegExp, a string key, a "/regex/" literal stored as a string, or a `{rule, message, ...}` descriptor.
- `Schema` (`schema.dfy`) defines field descriptors, the one-level grouping of fields into rows, and `flatInputs`.
- `Visibility` (`visibility.dfy`) models `getDerivedStateFromProps`. `Math.random` is replaced by a parameter `draw`, which gives the token the random source would produce for a field.
- `Validation` (`validation.dfy`) holds `validateForm`, `applyValidation` (including its silent mode) and `getInputValidationError`.
- `Controller` (`controller.dfy`) holds the input and blur handlers, `propagateChange` and its `onChange` payload, the host-values merge of `componentDidUpdate`, mounting and `submitForm`.

React runs `getDerivedStateFromProps` on every state update before the commit callback. The model therefore routes every state update through the resolver (`Controller.Commit`). The `setState` calls made in one handler are batched into one commit.

Some behaviours of the code are easy to misread, and the model follows the code in each:
- `required` on `null` does not fail. `Object.keys(null)` throws, `validateInput` catches the exception, and the rule passes (src/DynamicFormBuilder.jsx:39, 231).
- The `onChange` payload always carries the freshly computed error map. `propagateChange` receives an error delta, but `errors || validationErrors` always picks the fresh map, because an object is truthy (src/DynamicFormBuilder.jsx:273).
- An anonymised name is not regenerated when its field is hidden and shown again. A field with `autocomplete: false` keeps its token while hidden; only re-enabling autocomplete removes it (src/DynamicFormBuilder.jsx:95-105).
- A function rule is called as `rule(name, value)`, not with the value and the form (src/DynamicFormBuilder.jsx:199).
- The initial state takes only `defaultValues`. A field's own `defaultValue` is read only at render time (src/DynamicFormBuilder.jsx:10-16).

## Model

| member | source | states |
|---|---|---|
| JsValues.NatToStringRoundTrip | src/DynamicFormBuilder.jsx:64-66 | The decimal digits a number prints as are non-empty and read back as the same number. The `decimal` validator relies on this when it tests a number. JavaScript prints this way only below 10^21; see Left out. |
| JsValues.IntToStringDigits | src/DynamicFormBuilder.jsx:64-66 | A number prints as a pure digit string exactly when it is not negative. JavaScript prints this way only below 10^21; see Left out. |
| Registries.NumericFilter | src/DynamicFormBuilder.jsx:19-21 | The `numeric` filter accepts exactly the empty string and the strings made only of digits. |
| Registries.DecimalFilter | src/DynamicFormBuilder.jsx:22-24 | The `decimal` filter accepts exactly the strings made only of digits and dots, so several dots are allowed. |
| Registries.NumericWithinDecimal | src/DynamicFormBuilder.jsx:18-25 | Every keystroke the numeric filter accepts, the decimal filter accepts too. |
| Registries.DecimalFilterAcceptsDots | src/DynamicFormBuilder.jsx:22-24 | The decimal filter lets "1.2.3" through. The numeric filter rejects "1.2". |
| Registries.FilterRule | src/DynamicFormBuilder.jsx:150-157 | A filter key other than `numeric` or `decimal` makes the registry call throw. |
| Registries.Upper | src/DynamicFormBuilder.jsx:28-30 | `uppercase` keeps the length, leaves no lower-case letter, and agrees with the input once both are lower-cased. |
| Registries.Lower | src/DynamicFormBuilder.jsx:31-33 | `lowercase` keeps the length, leaves no upper-case letter, and agrees with the input once both are upper-cased. |
| Registries.CaseTransformersIdempotent | src/DynamicFormBuilder.jsx:27-34 | Re-applying a case transformer changes nothing. After lower-casing, upper-casing gives the same result as upper-casing directly, and the other way round. |
| Registries.TransformerRule | src/DynamicFormBuilder.jsx:170 | An unknown transformer key throws. `uppercase` and `lowercase` return the upper- and lower-cased text, of the same length. |
| Registries.Required | src/DynamicFormBuilder.jsx:37-47 | `required` throws on `null`. Strings and arrays pass iff they are non-empty, objects iff they have a key, `undefined` fails, and numbers and booleans pass, including `0` and `false`. |
| Registries.RequiredExamples | src/DynamicFormBuilder.jsx:37-47 | `required` on each kind of empty and non-empty value: empty string, array and object fail, `undefined` fails, and `null` throws instead of failing. |
| Registries.Match | src/DynamicFormBuilder.jsx:48-54 | `match` throws without a descriptor. Otherwise it passes iff the current form owns the key `item` and holds a value `==` to the input. |
| Registries.MatchStrings | src/DynamicFormBuilder.jsx:48-54 | With a standard `==` and text values, `match` passes iff `form[item]` is the same string. |
| Registries.Email | src/DynamicFormBuilder.jsx:55-57 | `email` never throws and passes every falsy value. A truthy value passes iff its string form matches the e-mail pattern. |
| Registries.Size | src/DynamicFormBuilder.jsx:58-63 | `size` fails on `null` and `undefined`. Without a descriptor it throws. Otherwise it fails iff `length < lengthChar`. |
| Registries.SizeOfString | src/DynamicFormBuilder.jsx:58-63 | With a numeric `lengthChar` n and a standard `<`, a string passes iff its length is at least n. |
| Registries.DecimalValidator | src/DynamicFormBuilder.jsx:64-66 | The `decimal` validator never throws and passes every falsy value. A truthy value passes iff its string form matches the decimal pattern. |
| Registries.DecimalValidatorUnanchored | src/DynamicFormBuilder.jsx:64-66 | ".5x" passes, because the `^\.\d+` branch has no end anchor. "1.5" passes; "1.5x" and "1.2.3" fail. |
| Registries.DecimalValidatorOnNumbers | src/DynamicFormBuilder.jsx:64-66 | A stored number passes the decimal validator iff it is not negative. In the program this holds only below 10^21; see Left out. |
| Registries.Validator | src/DynamicFormBuilder.jsx:36-67 | A validator key outside the five registered names throws. Each registered name dispatches to its validator. |
| Dispatch.RuleList | src/DynamicFormBuilder.jsx:183-185 | A bare rule becomes the list holding just that rule. An array is used as given. |
| Dispatch.LiteralPattern | src/DynamicFormBuilder.jsx:144-145 | A string counts as a "/regex/" literal iff it starts and ends with '/'. The pattern is the text between the slashes, except that a lone "/" gives "/". |
| Dispatch.ApplyFilter | src/DynamicFormBuilder.jsx:135-163 | A RegExp filter accepts iff it matches the raw text. A function filter accepts iff `filter(event)` is true. Unknown spec shapes and unknown keys accept the keystroke. A "/regex/" literal is decided by its pattern. The `numeric` and `decimal` keys are decided by their filters. |
| Dispatch.ApplyTransformer | src/DynamicFormBuilder.jsx:165-176 | Only an unknown string key fails, and it fails with an uncaught throw. A function transformer's result is `transformer(event)`. `uppercase` and `lowercase` give the case-mapped text. An unknown shape leaves the raw text. |
| Dispatch.Judge | src/DynamicFormBuilder.jsx:197-238 | A function rule fails iff `rule(name, value)` is falsy. A RegExp fails iff it does not match the value's string form. A string fails iff it is a literal whose pattern does not match, or a registered validator returns false. A throwing validator passes. A failing rule carries its descriptor's message. A descriptor nested inside a descriptor, or an unrecognised rule shape, never fails. |
| Dispatch.SwallowedRulesPass | src/DynamicFormBuilder.jsx:212-233 | These string rules never fail, because the call throws and the exception is swallowed: an unknown key, a "/regex/" literal whose pattern matches (it is then looked up as a key), and `required` on `null`. |
| Dispatch.RunRulesSpec | src/DynamicFormBuilder.jsx:187-239 | The rule loop evaluates every rule. It ends invalid iff some rule fails, and the message is the message of the last failing rule. |
| Dispatch.ValidateInputSpec | src/DynamicFormBuilder.jsx:178-245 | `validateInput` is valid iff no rule fails, and its entry is then `false`. Otherwise some rule is the last to fail, and the entry is its message, or `true` when that message is falsy. |
| Dispatch.SilentFailureErasesMessage | src/DynamicFormBuilder.jsx:199-202 | A later failing rule without a message erases an earlier rule's message, and the entry becomes `true`. |
| Schema.FlattenAppend | src/DynamicFormBuilder.jsx:74-76 | Flattening distributes over concatenation of schemas. |
| Schema.FlattenUnits | src/DynamicFormBuilder.jsx:74-76 | A field flattens to itself, and a row to its fields in order. |
| Visibility.DeriveFieldsCanRender | src/DynamicFormBuilder.jsx:85-93 | The loop appends, in order, the names of the fields whose `renderIf` is absent or true. |
| Visibility.DeriveFieldsPrunes | src/DynamicFormBuilder.jsx:87-91 | The loop removes exactly the hidden fields' value and error keys. |
| Visibility.DeriveStateVisibility | src/DynamicFormBuilder.jsx:78-116 | `canRender` lists, in flattened order, exactly the fields shown by the incoming state. Hidden fields lose their value and error keys, and every other key is unchanged. |
| Visibility.DeriveStateTokens | src/DynamicFormBuilder.jsx:95-105 | Applies when names are unique. An `autocomplete: false` field keeps its token, even while hidden, and draws one only if it has none. Other schema fields lose their token. Tokens of names outside the schema are untouched. |
| Visibility.RederiveTokens | src/DynamicFormBuilder.jsx:95-105 | With unique names and a random source that never yields an empty token, a second pass leaves the tokens unchanged and draws none. |
| Visibility.EmptyTokenRedrawn | src/DynamicFormBuilder.jsx:96-98 | When the token drawn for a field is empty, `!randomisedFields[name]` takes it for a missing one, and the next pass draws for that field again. |
| Visibility.DeriveStateIdempotent | src/DynamicFormBuilder.jsx:78-116 | With unique names, a random source that never yields an empty token, and every `renderIf` answering as it did the first time, re-running the resolver on its own result changes nothing and draws no token. |
| Validation.ValidateFormSpec | src/DynamicFormBuilder.jsx:356-389 | `validateForm` is valid iff every rule-carrying field of the full schema, hidden ones included, validates on its stored value. Its map is the prior map overlaid with each such field's own entry. |
| Validation.DisplayedErrorAfterValidation | src/DynamicFormBuilder.jsx:391-399 | After `validateForm`, a field shows its last failing rule's message when that message is truthy and not `true`. Otherwise it shows the host's `formErrors` entry. |
| Validation.ApplyValidation | src/DynamicFormBuilder.jsx:248-265 | The entry is merged into the error map, and the other keys are kept. In silent mode the merged map is committed only when the field is valid. |
| Controller.PropagateChangePayload | src/DynamicFormBuilder.jsx:267-288 | The payload carries the values as handed in and their validity against the committed state. Its error map is freshly computed, whatever error delta the caller passed. Each rule-carrying field's entry is that field's validation of the committed values, and every other key keeps the committed entry. |
| Controller.HandleInput | src/DynamicFormBuilder.jsx:290-331 | A filter rejection is a no-op. An unknown transformer key aborts the handler. Otherwise the value, with an object value unwrapped to its `value` key, is sent to the host and committed to the stored form, minus the fields the updated state hides. |
| Controller.HandleInputStores | src/DynamicFormBuilder.jsx:300-328 | Without an `onChange` transformer, an accepted keystroke always propagates to the host. A checkbox stores its `checked` state, any other field stores the raw text, and the other stored values are untouched. |
| Controller.HandleInputSilentMode | src/DynamicFormBuilder.jsx:310-320 | While the user types into a field that the updated state still shows, a failing validation leaves the field's committed error as it was. A passing one records `false`. |
| Controller.HandleInputAsWritten | src/DynamicFormBuilder.jsx:290-331 | This is `handleInput` as written, with the error filed under the event's name. It agrees with `HandleInput` whenever that name is the field's name. |
| Controller.HandleBlur | src/DynamicFormBuilder.jsx:333-354 | Blur sends the host a payload iff the transformed value is not `===` the stored one. Without rules and without a change, the state is untouched. |
| Controller.BlurPropagatesOnlyChanges | src/DynamicFormBuilder.jsx:349-353 | Without a transformer, blur reports nothing exactly when the stored value is the same string. |
| Controller.HandleBlurFilesError | src/DynamicFormBuilder.jsx:345-347 | On blur, the entry of a field that the updated state still shows is committed under the field's own name, whether or not the value changed. |
| Controller.HandleBlurAsWritten | src/DynamicFormBuilder.jsx:333-354 | This is `handleBlur` as written, with the error filed under the event's name. It agrees with `HandleBlur` whenever that name is the field's name. |
| Controller.AsWrittenBlurMisfilesError | src/DynamicFormBuilder.jsx:248-256 | As written, a blur whose event name differs from the field's name leaves the entry under the field's own name as it was. An anonymised input's rendered token is such a name. This holds whenever the field stays shown. |
| Controller.AsWrittenInputMisfilesError | src/DynamicFormBuilder.jsx:248-256 | As written, a keystroke whose event name differs from the field's name leaves the committed entry under the field's own name as it was, whether the value passes or fails. This holds whenever the field stays shown. |
| Controller.AnonymisedFieldLosesMessage | src/DynamicFormBuilder.jsx:391-399 | Concrete case: a required anonymised field left empty shows "Required" in the corrected model. As written it shows no error. |
| Controller.MergeValues | src/DynamicFormBuilder.jsx:124-126 | The merge of host values is right-biased. Its keys are the union, new values win, and previous values fill the rest. |
| Controller.ExternalUpdate | src/DynamicFormBuilder.jsx:118-133 | Host values start a change iff they are given and differ from the previous ones. The payload then carries their merge. |
| Controller.ExternalUpdateReplacesForm | src/DynamicFormBuilder.jsx:124-128 | After a host update the stored form holds only merged keys and values, so values typed into other fields are dropped. |
| Controller.MountSpec | src/DynamicFormBuilder.jsx:10-16 | At mount the values are the defaults minus hidden fields and there are no errors. Exactly the `autocomplete: false` fields carry a token, each freshly drawn. |
| Controller.SubmitFormSpec | src/DynamicFormBuilder.jsx:401-417 | Submit hands over the stored form and whether every rule-carrying field validates, whatever the verdict. The committed error map is `validateForm`'s map minus the fields the resolver hides. |

## Findings

| source | as written | input that shows it | evidently intended | confidence | as-written member | corrected member |
|---|---|---|---|---|---|---|
| src/DynamicFormBuilder.jsx:251 | `applyValidation` files each error under `event.target.name`. For a field with `autocomplete: false`, the input is rendered with the random token as its name (line 473). | A field `password` with `autocomplete: false`, token "k3j9", and rule `{rule: "required", message: "Required"}`, blurred while empty. The entry goes to key "k3j9", and `getInputValidationError("password")` returns `undefined`. | The entry is filed under the field's own name. That is the key `getInputValidationError` and `validateForm` use. | likely; not executed | Controller.AnonymisedFieldLosesMessage | Controller.HandleBlurFilesError |

The same keying is used by `handleInput` in silent mode, as `Controller.AsWrittenInputMisfilesError` states. `Controller.HandleInputAsWritten` and `Controller.HandleBlurAsWritten` reproduce the code as written. `Controller.HandleInput` and `Controller.HandleBlur` file the entry under the field's name. They also pass the field's name, not `event.target.name`, as the `name` argument of function rules called as `rule(name, value)` (src/DynamicFormBuilder.jsx:199). The two versions agree for every field that has no token.

## Left out

- Dispatch.InputEvent: `event.target.value` is text. Custom renderers receive `handleInput` and `handleBlur` (src/DynamicFormBuilder.jsx:434-449) and may call them with any value, such as a select's option object. Those calls are not modelled, with these consequences: the unwrap of an object value at src/DynamicFormBuilder.jsx:323-327 is reached only through a function transformer; the filters, `required` and `size` never see a non-string event value; and `handleBlur` storing an object without unwrapping it (src/DynamicFormBuilder.jsx:350) is not expressed.
- Rendering (src/DynamicFormBuilder.jsx:419-662) is left out: labels, CSS classes, custom renderers and the submit button, which are view glue. Only the rendered `name` attribute is modelled (`Controller.RenderedName`), because the finding depends on it.
- The debounce timer (`setTimeout`/`clearTimeout`) is not modelled; it is asynchronous scheduling. The deferred re-validation it would run is `Validation.ApplyValidation` with silent mode off.
- React's scheduling is not modelled. Each handler commits once, after the resolver has run; the separate `setState` calls are not modelled one by one.
- `console.error` logging and `event.persist` are left out.
- The regular-expression engine is an oracle (`Engine.regexTest`, `Engine.emailTest`). RegExp flags, `lastIndex` state, and the exception that `new RegExp` throws on a malformed literal are not modelled.
- Registries.Upper: maps only the ASCII letters. Unicode case mapping, which can change the length of a string, is not modelled.
- Registries.Lower: maps only the ASCII letters, for the same reason.
- JsValues.JsValue: numbers are integers. NaN, infinities, fractions and `-0` are not modelled. String lengths count characters, not UTF-16 code units.
- JsValues.NatToStringRoundTrip: holds for JavaScript's own printing only below 10^21. From 10^21 up, `Number.prototype.toString` switches to exponent form (`String(1e21)` is "1e+21"). Above 2^53, a double keeps only about 17 significant digits (`String(2**60)` is "1152921504606847000"). The model's numbers are unbounded integers printed digit by digit.
- JsValues.IntToStringDigits: a non-negative JavaScript number of 10^21 or more prints in exponent form, not as pure digits. The model does not bound its integers, so the equivalence is promised only for the unbounded-integer printing.
- Registries.DecimalValidatorOnNumbers: in the program, a stored number of 10^21 or more prints as "1e+21" or similar, matches none of the pattern's branches and fails. The lemma's "passes iff not negative" holds of the program only below 10^21.
- Registries.Match: loose equality `==` is an engine oracle. `Standard` fixes only its same-type and `null`/`undefined` cases.
- Registries.Size: `<` is an engine oracle. `Standard` fixes only its integer and `undefined` cases.
- Controller.HandleBlur: `!==` compares primitives by value and treats every object or array as different. Reference identity is not modelled.
- Controller.ExternalUpdate: host values are compared structurally, not through `JSON.stringify` text.
- Names of inherited `Object.prototype` members, such as `constructor`, `toString` or `isPrototypeOf`, are modelled as ordinary keys. As registry keys they are treated as unknown keys. Field names of that kind are treated like any other name, but the program differs for them: such a field never receives a token, because `!newRandomisedFields[name]` sees the inherited function (src/DynamicFormBuilder.jsx:96); `form[name] !== value` always holds on blur (src/DynamicFormBuilder.jsx:349); and `getInputValidationError` returns the inherited function (src/DynamicFormBuilder.jsx:395).
- A `null` or `undefined` rule, and a descriptor without `rule`, make `rule.constructor` throw outside any `try`. `Dispatch.RuleSpec` cannot express them.
- Exceptions thrown by user-supplied filter, rule, transformer or `renderIf` functions are not modelled.
- Schemas nested more than one level deep are left out, because `flatten` removes only one level.
- The `inputs` copy of the schema kept in the state (line 110) is left out, and `renderIf` does not see it.
- The lemmas about tokens, per-field error entries and mounting assume unique field names, which the schema requires.
- Visibility.DeriveStateIdempotent: assumes the random source never yields an empty token. `Math.random().toString(36).substring(7)` is empty whenever the base-36 text has at most seven characters (0.5 gives "0.i"). The source then draws again on every pass, as `Visibility.EmptyTokenRedrawn` states, so it is not idempotent in that case.
- Visibility.RederiveTokens: assumes the random source never yields an empty token, for the same reason.

=== FILE: controller.dfy ===
/**
  The change propagation and submit controller: the input and blur handlers,
  `propagateChange` and the `onChange` payload, the merge of host-driven
  values, mounting and submission, each as a step from one component state
  to the next. Every state update passes through the visibility resolver
  before it is committed, as the framework does with
  `getDerivedStateFromProps`.
*/
module Controller {
  import opened Wrappers
  import opened JsValues
  import opened Dispatch
  import opened Schema
  import opened Visibility
  import opened Validation

  /** The props the core reads: the schema, host errors, host-driven values (`null` by default), `onSubmit`. */
  datatype Props = Props(schema: Form, formErrors: Record, values: Option<Record>, hasOnSubmit: bool)

  /** `onChange({valid, data: {form, validationErrors}})`. */
  datatype ChangePayload = ChangePayload(valid: bool, form: Record, validationErrors: Record)

  /** The committed state and the payload handed to `onChange`. */
  datatype Change = Change(state: FormState, payload: ChangePayload)

  /** A state update as committed: the resolver runs on the pending state first. */
  function Commit(props: Props, pending: FormState, draw: string -> string): FormState {
    DeriveState(props.schema, pending, draw).state
  }

  /** No field of the schema with this name is conditional, so the resolver never hides it. */
  predicate Unconditional(schema: Form, name: string) {
    forall i | 0 <= i < |Flatten(schema)| :: Flatten(schema)[i].name == name ==> Flatten(schema)[i].renderIf.None?
  }

  /** A field without `renderIf` is shown in every state. */
  lemma UnconditionalNeverHidden(schema: Form, name: string, s: FormState)
    requires Unconditional(schema, name)
    ensures name !in HiddenNames(Flatten(schema), s)
  {
    HiddenNamesMembers(Flatten(schema), s, name);
  }

  /**
    A committed update keeps the value and error entry of every field that
    the state handed to the resolver still shows.
  */
  lemma CommitKeepsShown(props: Props, pending: FormState, draw: string -> string, name: string)
    requires name !in HiddenNames(Flatten(props.schema), pending)
    ensures var c := Commit(props, pending, draw);
      && (name in c.validationErrors <==> name in pending.validationErrors)
      && (name in c.validationErrors ==> c.validationErrors[name] == pending.validationErrors[name])
      && (name in c.form <==> name in pending.form)
  {
    DeriveStateVisibility(props.schema, pending, draw);
  }

  /**
    `propagateChange(form, validationErrors)`: store `form`, commit, then
    validate the whole form read-only. `errors || validationErrors` always
    picks the fresh map, since an object is truthy, so `immediate` is unused.
  */
  function PropagateChange(e: Engine, props: Props, st: FormState, form: Record,
                           immediate: Option<Record>, draw: string -> string): Change
  {
    var committed := Commit(props, st.(form := form), draw);
    var check := ValidateForm(e, props.schema, committed);
    Change(committed, ChangePayload(check.valid, form, check.errors))
  }

  /**
    The `onChange` payload carries the values as handed in (before hidden
    fields are pruned), validity of every rule-carrying field of the full
    schema against the committed values, and the freshly computed error map
    whatever error delta the caller supplied.
  */
  lemma PropagateChangePayload(e: Engine, props: Props, st: FormState, form: Record,
                               immediate: Option<Record>, other: Option<Record>, draw: string -> string)
    ensures var c := PropagateChange(e, props, st, form, immediate, draw);
      var fs := Flatten(props.schema);
      && c.payload.form == form
      && c.state.form == form - HiddenNames(fs, st.(form := form))
      && (c.payload.valid <==> AllFieldsValid(e, c.state.form, fs))
      && c.payload.validationErrors.Keys == c.state.validationErrors.Keys + RuleNames(fs)
      && (forall k | k in c.state.validationErrors && k !in RuleNames(fs) ::
            c.payload.validationErrors[k] == c.state.validationErrors[k])
      && (UniqueNames(fs) ==>
            forall i | 0 <= i < |fs| && HasRules(fs[i]) ::
              c.payload.validationErrors[fs[i].name] == FieldCheck(e, c.state.form, fs[i]).entry)
      && c.payload == PropagateChange(e, props, st, form, other, draw).payload
  {
    var committed := Commit(props, st.(form := form), draw);
    DeriveStateVisibility(props.schema, st.(form := form), draw);
    ValidateFormSpec(e, props.schema, committed);
  }

  // ------------------------------------------------------------------ input

  /** `value && typeof value === 'object' && !Array.isArray(value) ? value.value : value`. */
  function Unwrap(v: JsValue): JsValue {
    if v.Obj? then Lookup(v.props, "value") else v
  }

  /** What an input event leads to. */
  datatype InputOutcome =
    | Rejected                 // the filter refused the keystroke
    | Aborted                  // an unknown transformer key threw out of the handler
    | Changed(change: Change)

  /** The value a keystroke stores, before unwrapping: `checked` for a checkbox, then the `onChange` transformer. */
  function InputValue(field: Field, event: InputEvent): Option<JsValue> {
    var raw := if field.inputType == "checkbox" then Bool(event.checked) else Str(event.value);
    if GivenTransformer(field.onChange) then ApplyTransformer(event, field.onChange.value) else Some(raw)
  }

  /**
    The state a keystroke hands to the resolver: the stored value replaced,
    and the merged error map when silent mode lets it through.
  */
  function InputPending(e: Engine, st: FormState, field: Field, event: InputEvent, key: string,
                        value: JsValue): FormState
  {
    var applied :=
      if HasRules(field) then ApplyValidation(e, st, key, event.value, field.validationRules.value, true)
      else Applied(map[], false);
    var errors := if applied.commit then applied.merged else st.validationErrors;
    st.(form := st.form[field.name := Unwrap(value)], validationErrors := errors)
  }

  /**
    `handleInput`, with the error entry filed under `key`: filter, compute
    the value, transform, validate the raw event value in silent mode, store
    and propagate.
  */
  function InputStep(e: Engine, props: Props, st: FormState, field: Field, event: InputEvent,
                     draw: string -> string, key: string): InputOutcome
  {
    if field.filter.Some? && !ApplyFilter(e, event, field.filter.value) then Rejected
    else
      match InputValue(field, event)
      case None => Aborted
      case Some(value) =>
        var immediate :=
          if HasRules(field) then ApplyValidation(e, st, key, event.value, field.validationRules.value, true).merged
          else map[];
        var pending := InputPending(e, st, field, event, key, value);
        Changed(PropagateChange(e, props, pending, pending.form, Some(immediate), draw))
  }

  /** `handleInput` with the error filed under the field's name. */
  function HandleInput(e: Engine, props: Props, st: FormState, field: Field, event: InputEvent,
                       draw: string -> string): (r: InputOutcome)
    ensures r.Rejected? <==> field.filter.Some? && !ApplyFilter(e, event, field.filter.value)
    ensures r.Aborted? <==> !r.Rejected? && InputValue(field, event).None?
    ensures r.Changed? ==>
      r.change.payload.form == st.form[field.name := Unwrap(InputValue(field, event).value)]
    ensures r.Changed? ==>
      r.change.state.form == r.change.payload.form
        - HiddenNames(Flatten(props.schema), InputPending(e, st, field, event, field.name, InputValue(field, event).value))
  {
    if InputValue(field, event).Some? then
      DeriveStateVisibility(props.schema, InputPending(e, st, field, event, field.name, InputValue(field, event).value), draw);
      InputStep(e, props, st, field, event, draw, field.name)
    else
      InputStep(e, props, st, field, event, draw, field.name)
  }

  /** `handleInput` as written: the error is filed under `event.target.name`. */
  function HandleInputAsWritten(e: Engine, props: Props, st: FormState, field: Field, event: InputEvent,
                                draw: string -> string): (r: InputOutcome)
    ensures r.Rejected? <==> field.filter.Some? && !ApplyFilter(e, event, field.filter.value)
    ensures event.name == field.name ==> r == HandleInput(e, props, st, field, event, draw)
  {
    InputStep(e, props, st, field, event, draw, event.name)
  }

  /**
    A keystroke into a checkbox stores its `checked` state, and a keystroke
    into any other field without an `onChange` transformer stores the raw
    text; other stored values are untouched.
  */
  lemma HandleInputStores(e: Engine, props: Props, st: FormState, field: Field, event: InputEvent,
                          draw: string -> string)
    requires !GivenTransformer(field.onChange)
    requires field.filter.None? || ApplyFilter(e, event, field.filter.value)
    ensures var r := HandleInput(e, props, st, field, event, draw);
      && r.Changed?
      && r.change.payload.form.Keys == st.form.Keys + {field.name}
      && r.change.payload.form[field.name]
           == (if field.inputType == "checkbox" then Bool(event.checked) else Str(event.value))
      && (forall k | k in st.form && k != field.name :: r.change.payload.form[k] == st.form[k])
  {
  }

  /**
    Silent mode: while typing, a failing validation leaves the committed
    error state as it was (up to pruning of hidden fields), and a passing
    one records `false` for the field, even though the validated value is
    the raw event text and not the transformed one. This holds for every
    field the updated state still shows; a field whose `renderIf` hides it
    loses its entry instead.
  */
  lemma HandleInputSilentMode(e: Engine, props: Props, st: FormState, field: Field, event: InputEvent,
                              draw: string -> string)
    requires HasRules(field)
    requires field.filter.None? || ApplyFilter(e, event, field.filter.value)
    requires InputValue(field, event).Some?
    requires field.name !in HiddenNames(Flatten(props.schema),
                                        InputPending(e, st, field, event, field.name, InputValue(field, event).value))
    ensures var r := HandleInput(e, props, st, field, event, draw);
      var res := ValidateInput(e, st.form, field.name, Str(event.value), field.validationRules.value);
      && r.Changed?
      && (!res.valid ==>
            (field.name in r.change.state.validationErrors <==> field.name in st.validationErrors)
            && (field.name in st.validationErrors ==>
                  r.change.state.validationErrors[field.name] == st.validationErrors[field.name]))
      && (res.valid ==>
            field.name in r.change.state.validationErrors
            && r.change.state.validationErrors[field.name] == Bool(false))
  {
    var res := ValidateInput(e, st.form, field.name, Str(event.value), field.validationRules.value);
    ValidateInputSpec(e, st.form, field.name, Str(event.value), field.validationRules.value);
    var pending := InputPending(e, st, field, event, field.name, InputValue(field, event).value);
    CommitKeepsShown(props, pending, draw, field.name);
  }

  // ------------------------------------------------------------------- blur

  /** What a blur event leads to: an optional `onChange` payload, or an uncaught throw. */
  datatype BlurOutcome = BlurAborted | Blurred(state: FormState, payload: Option<ChangePayload>)

  /** The value a blur stores: the raw text, through the `onBlur` transformer when there is one. */
  function BlurValue(field: Field, event: InputEvent): Option<JsValue> {
    if GivenTransformer(field.onBlur) then ApplyTransformer(event, field.onBlur.value) else Some(Str(event.value))
  }

  /**
    The state a blur hands to the resolver: the merged error map when the
    field has rules, and the new value when it differs (`!==`) from the
    stored one.
  */
  function BlurPending(e: Engine, st: FormState, field: Field, event: InputEvent, key: string,
                       value: JsValue): FormState
  {
    var errors :=
      if HasRules(field) then ApplyValidation(e, st, key, event.value, field.validationRules.value, false).merged
      else st.validationErrors;
    var form := if StrictEquals(Lookup(st.form, field.name), value) then st.form else st.form[field.name := value];
    st.(form := form, validationErrors := errors)
  }

  /**
    `handleBlur`, with the error entry filed under `key`: transform, validate
    (committing), and propagate only when the value differs (`!==`) from the
    stored one.
  */
  function BlurStep(e: Engine, props: Props, st: FormState, field: Field, event: InputEvent,
                    draw: string -> string, key: string): BlurOutcome
  {
    match BlurValue(field, event)
    case None => BlurAborted
    case Some(value) =>
      var merged :=
        if HasRules(field) then ApplyValidation(e, st, key, event.value, field.validationRules.value, false).merged
        else map[];
      var pending := BlurPending(e, st, field, event, key, value);
      if !StrictEquals(Lookup(st.form, field.name), value) then
        var c := PropagateChange(e, props, pending, pending.form, Some(merged), draw);
        Blurred(c.state, Some(c.payload))
      else if HasRules(field) then Blurred(Commit(props, pending, draw), None)
      else Blurred(st, None)
  }

  /** `handleBlur` with the error filed under the field's name. */
  function HandleBlur(e: Engine, props: Props, st: FormState, field: Field, event: InputEvent,
                      draw: string -> string): (r: BlurOutcome)
    ensures r.BlurAborted? <==> BlurValue(field, event).None?
    ensures r.Blurred? ==>
      (r.payload.Some? <==> !StrictEquals(Lookup(st.form, field.name), BlurValue(field, event).value))
    ensures r.Blurred? && r.payload.None? && !HasRules(field) ==> r.state == st
    ensures r.Blurred? && r.payload.Some? ==>
      r.payload.value.form == st.form[field.name := BlurValue(field, event).value]
  {
    BlurStep(e, props, st, field, event, draw, field.name)
  }

  /** `handleBlur` as written: the error is filed under `event.target.name`. */
  function HandleBlurAsWritten(e: Engine, props: Props, st: FormState, field: Field, event: InputEvent,
                               draw: string -> string): (r: BlurOutcome)
    ensures r.BlurAborted? <==> BlurValue(field, event).None?
    ensures event.name == field.name ==> r == HandleBlur(e, props, st, field, event, draw)
  {
    BlurStep(e, props, st, field, event, draw, event.name)
  }

  /**
    Leaving a field whose text equals the stored string reports nothing to
    the host; leaving it with different text reports the new value.
  */
  lemma BlurPropagatesOnlyChanges(e: Engine, props: Props, st: FormState, field: Field, event: InputEvent,
                                  draw: string -> string)
    requires !GivenTransformer(field.onBlur)
    ensures var r := HandleBlur(e, props, st, field, event, draw);
      && r.Blurred?
      && (r.payload.None? <==> Lookup(st.form, field.name) == Str(event.value))
  {
  }

  /**
    On blur the field's error entry is always committed under the field's
    own name, whether or not the value changed, for every field the updated
    state still shows.
  */
  lemma HandleBlurFilesError(e: Engine, props: Props, st: FormState, field: Field, event: InputEvent,
                             draw: string -> string)
    requires HasRules(field)
    requires BlurValue(field, event).Some?
    requires field.name !in HiddenNames(Flatten(props.schema),
                                        BlurPending(e, st, field, event, field.name, BlurValue(field, event).value))
    ensures var r := HandleBlur(e, props, st, field, event, draw);
      && r.Blurred?
      && field.name in r.state.validationErrors
      && r.state.validationErrors[field.name]
           == ValidateInput(e, st.form, field.name, Str(event.value), field.validationRules.value).entry
  {
    CommitKeepsShown(props, BlurPending(e, st, field, event, field.name, BlurValue(field, event).value), draw, field.name);
  }

  // -------------------------------------------------------- rendered names

  /** The `name` attribute an input is rendered with: `randomisedFields[name] || name`. */
  function RenderedName(st: FormState, field: Field): string {
    if HasToken(st.randomisedFields, field.name) then st.randomisedFields[field.name] else field.name
  }

  /**
    As written, a blur whose event carries a name other than the field's
    own, as the token an anonymised input is rendered with does, files the
    error under that name: the entry under the field's own name, the one
    `getInputValidationError` reads, is left as it was.
  */
  lemma AsWrittenBlurMisfilesError(e: Engine, props: Props, st: FormState, field: Field, event: InputEvent,
                                   draw: string -> string)
    requires HasRules(field)
    requires BlurValue(field, event).Some?
    requires field.name !in HiddenNames(Flatten(props.schema),
                                        BlurPending(e, st, field, event, event.name, BlurValue(field, event).value))
    requires event.name != field.name
    ensures var r := HandleBlurAsWritten(e, props, st, field, event, draw);
      && r.Blurred?
      && (field.name in r.state.validationErrors <==> field.name in st.validationErrors)
      && (field.name in st.validationErrors ==>
            r.state.validationErrors[field.name] == st.validationErrors[field.name])
  {
    CommitKeepsShown(props, BlurPending(e, st, field, event, event.name, BlurValue(field, event).value), draw, field.name);
  }

  /**
    As written, a keystroke whose event carries a name other than the
    field's own files its silent-mode entry under that name: the committed
    entry under the field's own name is left as it was, pass or fail.
  */
  lemma AsWrittenInputMisfilesError(e: Engine, props: Props, st: FormState, field: Field, event: InputEvent,
                                    draw: string -> string)
    requires HasRules(field)
    requires field.filter.None? || ApplyFilter(e, event, field.filter.value)
    requires InputValue(field, event).Some?
    requires event.name != field.name
    requires field.name !in HiddenNames(Flatten(props.schema),
                                        InputPending(e, st, field, event, event.name, InputValue(field, event).value))
    ensures var r := HandleInputAsWritten(e, props, st, field, event, draw);
      && r.Changed?
      && (field.name in r.change.state.validationErrors <==> field.name in st.validationErrors)
      && (field.name in st.validationErrors ==>
            r.change.state.validationErrors[field.name] == st.validationErrors[field.name])
  {
    CommitKeepsShown(props, InputPending(e, st, field, event, event.name, InputValue(field, event).value), draw, field.name);
  }

  /**
    A concrete case: a required, anonymised password field with a message,
    left empty. Filed under the field's name, the message shows; as written,
    the host's (absent) error shows instead.
  */
  lemma AnonymisedFieldLosesMessage(e: Engine, draw: string -> string)
    ensures var field := Field("password", "password", None, None, None,
                               Some(One(Described(KeyRule("required"), Str("Required"), map[]))), None, true);
      var props := Props([Single(field)], map[], None, false);
      var st := FormState(map[], map[], map["password" := "k3j9"], ["password"]);
      var event := InputEvent("k3j9", "", false);
      && event.name == RenderedName(st, field)
      && HandleBlur(e, props, st, field, event, draw).Blurred?
      && HandleBlurAsWritten(e, props, st, field, event, draw).Blurred?
      && GetInputValidationError(HandleBlur(e, props, st, field, event, draw).state.validationErrors,
                                 props.formErrors, "password") == Str("Required")
      && GetInputValidationError(HandleBlurAsWritten(e, props, st, field, event, draw).state.validationErrors,
                                 props.formErrors, "password") == Undef
  {
    var field := Field("password", "password", None, None, None,
                       Some(One(Described(KeyRule("required"), Str("Required"), map[]))), None, true);
    var props := Props([Single(field)], map[], None, false);
    var st := FormState(map[], map[], map["password" := "k3j9"], ["password"]);
    var event := InputEvent("k3j9", "", false);
    assert Flatten(props.schema) == [field];
    assert Unconditional(props.schema, field.name);
    UnconditionalNeverHidden(props.schema, field.name, BlurPending(e, st, field, event, field.name, Str("")));
    UnconditionalNeverHidden(props.schema, field.name, BlurPending(e, st, field, event, event.name, Str("")));
    HandleBlurFilesError(e, props, st, field, event, draw);
    AsWrittenBlurMisfilesError(e, props, st, field, event, draw);
    assert ValidateInput(e, st.form, field.name, Str(event.value), field.validationRules.value).entry == Str("Required");
  }

  // ------------------------------------------------- host-driven values

  /** `{...previous, ...next}`: spreading `null` adds nothing, and later keys win. */
  function MergeValues(previous: Option<Record>, next: Record): (m: Record)
    ensures m.Keys == next.Keys + (if previous.Some? then previous.value.Keys else {})
    ensures forall k | k in next :: m[k] == next[k]
    ensures previous.Some? ==> forall k | k in previous.value && k !in next :: m[k] == previous.value[k]
  {
    previous.GetOr(map[]) + next
  }

  /**
    `componentDidUpdate`: when the host supplies values that differ from the
    previous props' values, their merge replaces the stored form and goes
    through `propagateChange` like an edit.
  */
  function ExternalUpdate(e: Engine, props: Props, previous: Option<Record>, st: FormState,
                          draw: string -> string): (r: Option<Change>)
    ensures r.Some? <==> props.values.Some? && previous != props.values
    ensures r.Some? ==> r.value.payload.form == MergeValues(previous, props.values.value)
  {
    match props.values
    case None => None
    case Some(next) =>
      if previous == Some(next) then None
      else Some(PropagateChange(e, props, st, MergeValues(previous, next), None, draw))
  }

  /**
    The merge replaces the stored form wholesale: after a host update, no
    key survives that neither the previous nor the new host values carry,
    so values typed into other fields are dropped.
  */
  lemma ExternalUpdateReplacesForm(e: Engine, props: Props, previous: Option<Record>, st: FormState,
                                   draw: string -> string)
    requires props.values.Some? && previous != props.values
    ensures var r := ExternalUpdate(e, props, previous, st, draw);
      var merged := MergeValues(previous, props.values.value);
      && r.Some?
      && r.value.state.form.Keys <= merged.Keys
      && (forall k | k in r.value.state.form :: r.value.state.form[k] == merged[k])
  {
    var merged := MergeValues(previous, props.values.value);
    DeriveStateVisibility(props.schema, st.(form := merged), draw);
  }

  // ------------------------------------------------------- mount and submit

  /** The state built at mount from `defaultValues`, as first committed. */
  function Mount(props: Props, defaultValues: Record, draw: string -> string): FormState {
    Commit(props, FormState(defaultValues, map[], map[], []), draw)
  }

  /**
    At mount the stored values are the default values minus hidden fields,
    no field has an error entry, and only `autocomplete: false` fields of a
    schema with unique names carry a token, each freshly drawn.
  */
  lemma MountSpec(props: Props, defaultValues: Record, draw: string -> string)
    requires UniqueNames(Flatten(props.schema))
    ensures var st := Mount(props, defaultValues, draw);
      var fs := Flatten(props.schema);
      && st.form == defaultValues - HiddenNames(fs, FormState(defaultValues, map[], map[], []))
      && st.validationErrors == map[]
      && (forall k :: k in st.randomisedFields <==> exists i | 0 <= i < |fs| :: fs[i].autocompleteOff && fs[i].name == k)
      && (forall i | 0 <= i < |fs| && fs[i].autocompleteOff :: st.randomisedFields[fs[i].name] == draw(fs[i].name))
  {
    var init := FormState(defaultValues, map[], map[], []);
    var fs := Flatten(props.schema);
    DeriveStateVisibility(props.schema, init, draw);
    DeriveStateTokens(props.schema, init, draw);
    var tokens := Mount(props, defaultValues, draw).randomisedFields;
    forall k ensures k in tokens <==> exists i | 0 <= i < |fs| :: fs[i].autocompleteOff && fs[i].name == k {
      if k in tokens && k in Names(fs) {
        var i :| 0 <= i < |fs| && Names(fs)[i] == k;
      }
    }
  }

  /** `onSubmit({valid, model})`: `model` is the form as it stood before validation. */
  datatype Submission = Submission(valid: bool, model: Record)

  datatype SubmitOutcome = SubmitOutcome(state: FormState, submission: Option<Submission>)

  /** `submitForm`: without `onSubmit` nothing happens; otherwise validate with display and submit regardless. */
  function SubmitForm(e: Engine, props: Props, st: FormState, draw: string -> string): SubmitOutcome {
    if !props.hasOnSubmit then SubmitOutcome(st, None)
    else
      var check := ValidateForm(e, props.schema, st);
      SubmitOutcome(Commit(props, st.(validationErrors := check.errors), draw), Some(Submission(check.valid, st.form)))
  }

  /**
    Submission hands the host the stored form and whether every
    rule-carrying field of the full schema validates, and commits
    `validateForm`'s error map, minus the fields the resolver hides,
    whatever the verdict.
  */
  lemma SubmitFormSpec(e: Engine, props: Props, st: FormState, draw: string -> string)
    requires props.hasOnSubmit
    ensures var r := SubmitForm(e, props, st, draw);
      var fs := Flatten(props.schema);
      && r.submission.Some?
      && r.submission.value.model == st.form
      && (r.submission.value.valid <==> AllFieldsValid(e, st.form, fs))
      && r.state.validationErrors.Keys <= st.validationErrors.Keys + RuleNames(fs)
      && r.state.validationErrors == ValidateForm(e, props.schema, st).errors
           - HiddenNames(fs, st.(validationErrors := ValidateForm(e, props.schema, st).errors))
  {
    var check := ValidateForm(e, props.schema, st);
    ValidateFormSpec(e, props.schema, st);
    DeriveStateVisibility(props.schema, st.(validationErrors := check.errors), draw);
  }
}

=== FILE: dispatch.dfy ===
/**
  Rule dispatch: how a field's declared filter, transformer and validation
  rules are resolved by their runtime shape (function, regular expression,
  string key or serialized "/regex/" literal, `{rule, message, ...}`
  descriptor) and applied to an input event or a value.
*/
module Dispatch {
  import opened Wrappers
  import opened JsValues
  import opened Registries

  /** The parts of a DOM input event the engine reads: `target.name`, `target.value`, `target.checked`. */
  datatype InputEvent = InputEvent(name: string, value: string, checked: bool)

  /** A filter spec, by constructor: RegExp, Function, String, anything else. */
  datatype FilterSpec =
    | RegexFilter(pattern: string)
    | FnFilter(accepts: InputEvent -> bool)
    | KeyFilter(key: string)
    | OtherFilter

  /** A transformer spec, by constructor: Function, String, anything else. */
  datatype TransformerSpec =
    | FnTransformer(apply: InputEvent -> JsValue)
    | KeyTransformer(key: string)
    | OtherTransformer

  /**
    A validation rule, by constructor. A function rule is called as
    `rule(name, value)`; its result is taken by truthiness. `Described` is a
    plain-object descriptor `{rule, message, ...params}`.
  */
  datatype RuleSpec =
    | FnRule(holds: (string, JsValue) -> bool)
    | RegexRule(pattern: string)
    | KeyRule(key: string)
    | Described(inner: RuleSpec, message: JsValue, params: Record)
    | OtherRule

  /** `validationRules`: a single rule or an array of rules. */
  datatype Rules = One(rule: RuleSpec) | Many(list: seq<RuleSpec>)

  /** A bare rule is treated as a one-element array. */
  function RuleList(rules: Rules): (rs: seq<RuleSpec>)
    ensures rules.One? ==> rs == [rules.rule]
    ensures rules.Many? ==> rs == rules.list
  {
    match rules
    case One(r) => [r]
    case Many(rs) => rs
  }

  /**
    A string stored as a "/regex/" literal: it starts and ends with '/', and
    `substring(1, length - 1)` is its pattern. A lone "/" qualifies too, and
    `substring(1, 0)` swaps its arguments, giving "/".
  */
  function LiteralPattern(s: string): (r: Option<string>)
    ensures r.Some? <==> |s| > 0 && s[0] == '/' && s[|s| - 1] == '/'
    ensures r.Some? && |s| >= 2 ==> s == "/" + r.value + "/"
    ensures s == "/" ==> r == Some("/")
  {
    if |s| > 0 && s[0] == '/' && s[|s| - 1] == '/' then
      Some(if |s| >= 2 then s[1..|s| - 1] else s)
    else None
  }

  /**
    `applyFilter`: whether the keystroke is accepted. Unknown keys and unknown
    spec shapes fail open.
  */
  function ApplyFilter(e: Engine, event: InputEvent, filter: FilterSpec): (ok: bool)
    ensures filter.RegexFilter? ==> (ok <==> e.regexTest(filter.pattern, event.value))
    ensures filter.FnFilter? ==> (ok <==> filter.accepts(event))
    ensures filter.OtherFilter? ==> ok
    ensures filter.KeyFilter? && LiteralPattern(filter.key).None? ==>
      (ok <==> ((filter.key == "numeric" ==> NumericFilter(event.value))
                && (filter.key == "decimal" ==> DecimalFilter(event.value))))
    ensures filter.KeyFilter? && LiteralPattern(filter.key).Some? ==>
      (ok <==> e.regexTest(LiteralPattern(filter.key).value, event.value))
  {
    match filter
    case RegexFilter(p) => e.regexTest(p, event.value)
    case FnFilter(accepts) => accepts(event)
    case KeyFilter(key) =>
      (match LiteralPattern(key)
       case Some(p) => e.regexTest(p, event.value)
       case None =>
         match FilterRule(key, event.value)
         case Returned(ok) => ok
         case Threw => true)
    case OtherFilter => true
  }

  /**
    `applyTransformer`: the transformed value, or `None` when a string key
    names no transformer, in which case the call throws and nothing catches
    it. An unknown spec shape leaves the raw value.
  */
  function ApplyTransformer(event: InputEvent, t: TransformerSpec): (r: Option<JsValue>)
    ensures r.None? <==> t.KeyTransformer? && t.key != "uppercase" && t.key != "lowercase"
    ensures t.OtherTransformer? ==> r == Some(Str(event.value))
    ensures t.FnTransformer? ==> r == Some(t.apply(event))
    ensures t.KeyTransformer? && t.key == "uppercase" ==> r == Some(Str(Upper(event.value)))
    ensures t.KeyTransformer? && t.key == "lowercase" ==> r == Some(Str(Lower(event.value)))
    ensures t.KeyTransformer? && r.Some? ==> r.value.Str? && |r.value.s| == |event.value|
  {
    match t
    case FnTransformer(apply) => Some(apply(event))
    case KeyTransformer(key) =>
      (match TransformerRule(key, event.value)
       case Some(s) => Some(Str(s))
       case None => None)
    case OtherTransformer => Some(Str(event.value))
  }

  /** Whether one rule blocks the field, and with which message. */
  datatype Verdict = Pass | Fail(message: JsValue)

  /**
    One rule after any descriptor was unwrapped: `message` is the
    descriptor's message (`null` without one) and `base` the descriptor
    itself (`null` without one). A failing "/regex/" literal fails the rule;
    otherwise the string is looked up in the registry, and a throwing lookup
    or call is caught and the rule passes.
  */
  function Judge(e: Engine, form: Record, name: string, value: JsValue,
                 rule: RuleSpec, message: JsValue, base: Option<Record>): (v: Verdict)
    ensures v.Fail? ==> v.message == message
    ensures rule.OtherRule? || rule.Described? ==> v.Pass?
    ensures rule.FnRule? ==> (v.Fail? <==> !rule.holds(name, value))
    ensures rule.RegexRule? ==> (v.Fail? <==> !e.regexTest(rule.pattern, ToJsString(value)))
    ensures rule.KeyRule? ==>
      (v.Fail? <==>
        (LiteralPattern(rule.key).Some? && !e.regexTest(LiteralPattern(rule.key).value, ToJsString(value)))
        || Validator(e, form, rule.key, value, base) == Returned(false))
  {
    match rule
    case FnRule(holds) => if holds(name, value) then Pass else Fail(message)
    case RegexRule(p) => if e.regexTest(p, ToJsString(value)) then Pass else Fail(message)
    case KeyRule(key) =>
      if LiteralPattern(key).Some? && !e.regexTest(LiteralPattern(key).value, ToJsString(value)) then
        Fail(message)
      else (
        match Validator(e, form, key, value, base)
        case Returned(ok) => if ok then Pass else Fail(message)
        case Threw => Pass)
    case Described(_, _, _) => Pass
    case OtherRule => Pass
  }

  /** One entry of the rule list: a descriptor supplies its message and itself as `base`. */
  function RuleVerdict(e: Engine, form: Record, name: string, value: JsValue, rule: RuleSpec): Verdict {
    match rule
    case Described(inner, message, params) => Judge(e, form, name, value, inner, message, Some(params))
    case _ => Judge(e, form, name, value, rule, Null, None)
  }

  /** A literal starts with '/', so it never names a registered validator. */
  lemma LiteralIsNoValidatorName(key: string)
    requires LiteralPattern(key).Some?
    ensures !IsValidatorName(key)
  {
    assert key[0] == '/';
    assert "required"[0] != '/' && "match"[0] != '/' && "email"[0] != '/';
    assert "size"[0] != '/' && "decimal"[0] != '/';
  }

  /**
    An unknown key that is not a failing literal: the registry lookup throws
    and the rule passes, bare or described.
  */
  lemma UnknownKeyPasses(e: Engine, form: Record, name: string, value: JsValue, key: string,
                         message: JsValue, params: Record)
    requires !IsValidatorName(key)
    requires LiteralPattern(key).None? || e.regexTest(LiteralPattern(key).value, ToJsString(value))
    ensures RuleVerdict(e, form, name, value, KeyRule(key)).Pass?
    ensures RuleVerdict(e, form, name, value, Described(KeyRule(key), message, params)).Pass?
  {
  }

  /** `required` on `null`: `Object.keys(null)` throws and the rule passes, bare or described. */
  lemma RequiredOnNullPasses(e: Engine, form: Record, name: string, message: JsValue, params: Record)
    ensures RuleVerdict(e, form, name, Null, KeyRule("required")).Pass?
    ensures RuleVerdict(e, form, name, Null, Described(KeyRule("required"), message, params)).Pass?
  {
  }

  /**
    String rules that can never block a field, because the registry call
    throws and the exception is swallowed: an unknown key, a "/regex/"
    literal whose pattern matches (its text is then looked up as a key),
    and `required` on `null`.
  */
  lemma SwallowedRulesPass(e: Engine, form: Record, name: string, value: JsValue, key: string,
                           message: JsValue, params: Record)
    ensures !IsValidatorName(key) && LiteralPattern(key).None? ==>
      RuleVerdict(e, form, name, value, KeyRule(key)).Pass?
      && RuleVerdict(e, form, name, value, Described(KeyRule(key), message, params)).Pass?
    ensures LiteralPattern(key).Some? && e.regexTest(LiteralPattern(key).value, ToJsString(value)) ==>
      RuleVerdict(e, form, name, value, KeyRule(key)).Pass?
      && RuleVerdict(e, form, name, value, Described(KeyRule(key), message, params)).Pass?
    ensures RuleVerdict(e, form, name, Null, KeyRule("required")).Pass?
    ensures RuleVerdict(e, form, name, Null, Described(KeyRule("required"), message, params)).Pass?
  {
    if LiteralPattern(key).Some? {
      LiteralIsNoValidatorName(key);
    }
    if !IsValidatorName(key) && (LiteralPattern(key).None? || e.regexTest(LiteralPattern(key).value, ToJsString(value))) {
      UnknownKeyPasses(e, form, name, value, key, message, params);
    }
    RequiredOnNullPasses(e, form, name, message, params);
  }

  /** The running state of the rule loop: `valid` and the last recorded `errorMessage`. */
  datatype Tally = Tally(valid: bool, message: JsValue)

  function Tallied(t: Tally, v: Verdict): Tally {
    match v
    case Pass => t
    case Fail(m) => Tally(false, m)
  }

  /** The `forEach` over the rules: every rule is evaluated, a failure overwrites the message. */
  function RunRules(e: Engine, form: Record, name: string, value: JsValue,
                    rs: seq<RuleSpec>, t: Tally): Tally
    decreases |rs|
  {
    if |rs| == 0 then t
    else RunRules(e, form, name, value, rs[1..], Tallied(t, RuleVerdict(e, form, name, value, rs[0])))
  }

  /** The error-map entry for a field: `false` when valid, else the message if truthy, else `true`. */
  function ErrorEntry(valid: bool, message: JsValue): JsValue {
    if valid then Bool(false) else if Truthy(message) then message else Bool(true)
  }

  /** `validateInput`'s pair `[valid, {[name]: entry}]`, the map given by its single entry. */
  datatype FieldResult = FieldResult(valid: bool, entry: JsValue)

  /** `validateInput(name, value, rules)`; `form` is the stored form the `match` validator reads. */
  function ValidateInput(e: Engine, form: Record, name: string, value: JsValue, rules: Rules): FieldResult {
    var t := RunRules(e, form, name, value, RuleList(rules), Tally(true, Null));
    FieldResult(t.valid, ErrorEntry(t.valid, t.message))
  }

  /** The verdict of every rule in the list, in order. */
  function Verdicts(e: Engine, form: Record, name: string, value: JsValue, rs: seq<RuleSpec>): (vs: seq<Verdict>)
    ensures |vs| == |rs|
  {
    seq(|rs|, i requires 0 <= i < |rs| => RuleVerdict(e, form, name, value, rs[i]))
  }

  /** Index `i` holds the last failing verdict. */
  ghost predicate LastFailureAt(vs: seq<Verdict>, i: int) {
    0 <= i < |vs| && vs[i].Fail? && forall j | i < j < |vs| :: vs[j].Pass?
  }

  /** The loop over verdicts: it ends invalid iff it started so or some verdict fails; the message is the last failure's. */
  lemma {:induction false} RunRulesSpec(e: Engine, form: Record, name: string, value: JsValue,
                                        rs: seq<RuleSpec>, t: Tally)
    ensures var r := RunRules(e, form, name, value, rs, t);
      var vs := Verdicts(e, form, name, value, rs);
      && (r.valid <==> t.valid && forall i | 0 <= i < |vs| :: vs[i].Pass?)
      && ((forall i | 0 <= i < |vs| :: vs[i].Pass?) ==> r.message == t.message)
      && (forall i | LastFailureAt(vs, i) :: r.message == vs[i].message)
    decreases |rs|
  {
    if |rs| > 0 {
      var t' := Tallied(t, RuleVerdict(e, form, name, value, rs[0]));
      RunRulesSpec(e, form, name, value, rs[1..], t');
      var vs := Verdicts(e, form, name, value, rs);
      var vs' := Verdicts(e, form, name, value, rs[1..]);
      assert forall i | 0 <= i < |vs'| :: vs'[i] == vs[i + 1];
      assert vs[0] == RuleVerdict(e, form, name, value, rs[0]);
      if vs[0].Pass? && forall i | 0 <= i < |vs'| :: vs'[i].Pass? {
        forall i | 0 <= i < |vs| ensures vs[i].Pass? {
          if i > 0 { assert vs[i] == vs'[i - 1]; }
        }
      }
      forall i | LastFailureAt(vs, i)
        ensures RunRules(e, form, name, value, rs, t).message == vs[i].message
      {
        if i > 0 {
          assert LastFailureAt(vs', i - 1);
        }
      }
    }
  }

  /**
    `validateInput` is valid iff no rule fails; its entry is `false` when
    valid, and otherwise the message of the LAST failing rule, or `true`
    when that message is falsy, so a later message-less failure erases an
    earlier message.
  */
  lemma ValidateInputSpec(e: Engine, form: Record, name: string, value: JsValue, rules: Rules)
    ensures var r := ValidateInput(e, form, name, value, rules);
      var vs := Verdicts(e, form, name, value, RuleList(rules));
      && (r.valid <==> forall i | 0 <= i < |vs| :: vs[i].Pass?)
      && (r.valid ==> r.entry == Bool(false))
      && (forall i | LastFailureAt(vs, i) :: r.entry == ErrorEntry(false, vs[i].message))
      && (!r.valid ==> exists i :: LastFailureAt(vs, i))
  {
    RunRulesSpec(e, form, name, value, RuleList(rules), Tally(true, Null));
    var vs := Verdicts(e, form, name, value, RuleList(rules));
    if !ValidateInput(e, form, name, value, rules).valid {
      LastFailureExists(vs);
    }
  }

  /** When some rule fails, some rule is the last failing one. */
  lemma {:induction false} LastFailureExists(vs: seq<Verdict>)
    requires exists i | 0 <= i < |vs| :: vs[i].Fail?
    ensures exists i :: LastFailureAt(vs, i)
  {
    var n := |vs| - 1;
    if vs[n].Fail? {
      assert LastFailureAt(vs, n);
    } else {
      var k :| 0 <= k < |vs| && vs[k].Fail?;
      var front := vs[..n];
      assert front[k] == vs[k];
      LastFailureExists(front);
      var i :| LastFailureAt(front, i);
      assert LastFailureAt(vs, i);
    }
  }

  /**
    Two failing rules, the first with a message and the second without: the
    field's entry is `true`, the first message is lost.
  */
  lemma SilentFailureErasesMessage(e: Engine, form: Record, name: string, value: JsValue)
    ensures var never := (n: string, v: JsValue) => false;
      ValidateInput(e, form, name, value,
        Many([Described(FnRule(never), Str("too short"), map[]), FnRule(never)]))
      == FieldResult(false, Bool(true))
  {
  }
}

=== FILE: js_value.dfy ===
/**
  The JavaScript values the form engine handles, the coercions it relies on
  (truthiness, `== undefined`, ToString, `.length`), and the parts of the
  JavaScript engine that are not reimplemented here, collected as oracles in
  `Engine`.
*/
module JsValues {
  import opened Wrappers

  /** A JavaScript value. Numbers are modelled as integers. */
  datatype JsValue =
    | Undef
    | Null
    | Bool(b: bool)
    | Num(n: int)
    | Str(s: string)
    | Arr(elems: seq<JsValue>)
    | Obj(props: map<string, JsValue>)

  /** A plain JavaScript object used as a dictionary (form values, error maps). */
  type Record = map<string, JsValue>

  /** `record[key]`: a missing key reads as `undefined`. */
  function Lookup(m: Record, key: string): JsValue {
    if key in m then m[key] else Undef
  }

  /** JavaScript truthiness (`!!v`). */
  predicate Truthy(v: JsValue) {
    match v
    case Undef => false
    case Null => false
    case Bool(b) => b
    case Num(n) => n != 0
    case Str(s) => |s| > 0
    case Arr(_) => true
    case Obj(_) => true
  }

  /** `v == undefined` with loose equality: true exactly for `null` and `undefined`. */
  predicate Nullish(v: JsValue) {
    v.Undef? || v.Null?
  }

  /**
    `a === b` as far as this model can decide it: primitives compare by value;
    objects and arrays are compared by reference in JavaScript, and a value
    produced by a handler is a fresh allocation, so they never compare equal.
  */
  predicate StrictEquals(a: JsValue, b: JsValue) {
    match a
    case Undef => b.Undef?
    case Null => b.Null?
    case Bool(x) => b.Bool? && b.b == x
    case Num(x) => b.Num? && b.n == x
    case Str(x) => b.Str? && b.s == x
    case Arr(_) => false
    case Obj(_) => false
  }

  predicate IsDigit(c: char) {
    '0' <= c <= '9'
  }

  predicate AllDigits(s: string) {
    forall i | 0 <= i < |s| :: IsDigit(s[i])
  }

  function DigitChar(d: nat): (c: char)
    requires d < 10
    ensures IsDigit(c)
  {
    ('0' as int + d) as char
  }

  function DigitValue(c: char): nat
    requires IsDigit(c)
  {
    c as int - '0' as int
  }

  /** Decimal digits of a natural number, most significant first, no leading zeros. */
  function NatToString(n: nat): string
  {
    if n < 10 then [DigitChar(n)] else NatToString(n / 10) + [DigitChar(n % 10)]
  }

  /** The value of a string of decimal digits. */
  function DigitsValue(s: string): nat
    requires AllDigits(s)
  {
    if |s| == 0 then 0 else 10 * DigitsValue(s[..|s| - 1]) + DigitValue(s[|s| - 1])
  }

  /** Number-to-string conversion of an integral JavaScript number. */
  function IntToString(n: int): string {
    if n < 0 then "-" + NatToString(-n) else NatToString(n)
  }

  /**
    The printed digits of a natural number are non-empty, are all digits,
    and read back as the same number.
  */
  lemma {:induction false} NatToStringRoundTrip(n: nat)
    ensures |NatToString(n)| > 0
    ensures AllDigits(NatToString(n))
    ensures DigitsValue(NatToString(n)) == n
  {
    if n >= 10 {
      NatToStringRoundTrip(n / 10);
      var s := NatToString(n);
      assert s[..|s| - 1] == NatToString(n / 10);
    }
  }

  /** A printed integer is a digit string exactly when the integer is not negative. */
  lemma IntToStringDigits(n: int)
    ensures |IntToString(n)| > 0
    ensures AllDigits(IntToString(n)) <==> n >= 0
  {
    if n < 0 {
      NatToStringRoundTrip(-n);
      assert IntToString(n)[0] == '-';
    } else {
      NatToStringRoundTrip(n);
    }
  }

  /** `parts.join(",")` */
  function JoinComma(parts: seq<string>): string {
    if |parts| == 0 then ""
    else if |parts| == 1 then parts[0]
    else parts[0] + "," + JoinComma(parts[1..])
  }

  /**
    The ECMAScript ToString conversion, which `RegExp.prototype.test` applies
    to its argument: arrays join their elements with commas (null and
    undefined elements print as empty), plain objects print as
    "[object Object]".
  */
  function ToJsString(v: JsValue): string {
    match v
    case Undef => "undefined"
    case Null => "null"
    case Bool(b) => if b then "true" else "false"
    case Num(n) => IntToString(n)
    case Str(s) => s
    case Arr(es) =>
      JoinComma(seq(|es|, i requires 0 <= i < |es| =>
        if Nullish(es[i]) then "" else ToJsString(es[i])))
    case Obj(_) => "[object Object]"
  }

  /** `v.length`: strings and arrays have one; an object only if it has its own "length" key. */
  function LengthOf(v: JsValue): JsValue
    requires !Nullish(v)
  {
    match v
    case Str(s) => Num(|s|)
    case Arr(es) => Num(|es|)
    case Obj(m) => Lookup(m, "length")
    case _ => Undef
  }

  /**
    The parts of the JavaScript engine this model does not reimplement.
    `regexTest(source, s)` is `new RegExp(source).test(s)` (and a RegExp
    object's `test`, identified by its source); `emailTest` is the fixed
    e-mail pattern of the `email` validator; `looseEq` is `==`; `lessThan` is
    `<`.
  */
  datatype Engine = Engine(
    regexTest: (string, string) -> bool,
    emailTest: string -> bool,
    looseEq: (JsValue, JsValue) -> bool,
    lessThan: (JsValue, JsValue) -> bool)

  /**
    An engine whose `==` and `<` behave as ECMAScript prescribes on the simple
    cases: same-type primitives compare by value, `null` and `undefined` are
    loosely equal to each other only, and `undefined` (NaN once converted to a
    number) is never on either side of a true `<`.
  */
  ghost predicate Standard(e: Engine) {
    && (forall a: string, b: string :: e.looseEq(Str(a), Str(b)) == (a == b))
    && (forall a: int, b: int :: e.looseEq(Num(a), Num(b)) == (a == b))
    && (forall a: bool, b: bool :: e.looseEq(Bool(a), Bool(b)) == (a == b))
    && (forall v :: e.looseEq(Undef, v) == Nullish(v))
    && (forall v :: e.looseEq(Null, v) == Nullish(v))
    && (forall a: int, b: int :: e.lessThan(Num(a), Num(b)) == (a < b))
    && (forall v :: !e.lessThan(Undef, v))
    && (forall v :: !e.lessThan(v, Undef))
  }
}

=== FILE: registries.dfy ===
/**
  The component's three rule registries: the `numeric` and `decimal` input
  filters, the `uppercase` and `lowercase` transformers, and the `required`,
  `match`, `email`, `size` and `decimal` validators.
*/
module Registries {
  import opened Wrappers
  import opened JsValues

  /** What calling a registry entry does: it returns a verdict or it throws. */
  datatype Outcome = Returned(ok: bool) | Threw

  // ---------------------------------------------------------------- filters

  /** The `numeric` filter: `/^$|^[0-9]+$/`. */
  function NumericFilter(value: string): (ok: bool)
    ensures ok <==> forall i | 0 <= i < |value| :: IsDigit(value[i])
  {
    value == "" || (|value| > 0 && AllDigits(value))
  }

  predicate IsDigitOrDot(c: char) {
    IsDigit(c) || c == '.'
  }

  /** The `decimal` filter: `/^$|^[\d.]+$/`; any number of dots is let through. */
  function DecimalFilter(value: string): (ok: bool)
    ensures ok <==> forall i | 0 <= i < |value| :: IsDigit(value[i]) || value[i] == '.'
  {
    value == "" || (|value| > 0 && forall i | 0 <= i < |value| :: IsDigitOrDot(value[i]))
  }

  /** Every keystroke the numeric filter accepts, the decimal filter accepts too. */
  lemma NumericWithinDecimal(value: string)
    ensures NumericFilter(value) ==> DecimalFilter(value)
  {
  }

  /** The decimal filter lets a value with several dots through. */
  lemma DecimalFilterAcceptsDots()
    ensures DecimalFilter("1.2.3")
    ensures !NumericFilter("1.2")
  {
    assert !IsDigit("1.2"[1]);
  }

  /** `filterRules[key](value)`: an unknown key calls `undefined`, which throws. */
  function FilterRule(key: string, value: string): (r: Outcome)
    ensures r.Threw? <==> key != "numeric" && key != "decimal"
    ensures key == "numeric" ==> r == Returned(NumericFilter(value))
    ensures key == "decimal" ==> r == Returned(DecimalFilter(value))
  {
    if key == "numeric" then Returned(NumericFilter(value))
    else if key == "decimal" then Returned(DecimalFilter(value))
    else Threw
  }

  // ----------------------------------------------------------- transformers

  predicate IsLowerAscii(c: char) {
    'a' <= c <= 'z'
  }

  predicate IsUpperAscii(c: char) {
    'A' <= c <= 'Z'
  }

  function UpperChar(c: char): char {
    if IsLowerAscii(c) then (c as int - 32) as char else c
  }

  function LowerChar(c: char): char {
    if IsUpperAscii(c) then (c as int + 32) as char else c
  }

  /** The `uppercase` transformer, on the ASCII letters. */
  function Upper(s: string): (r: string)
    ensures |r| == |s|
    ensures forall i | 0 <= i < |r| :: !IsLowerAscii(r[i])
    ensures forall i | 0 <= i < |r| :: LowerChar(r[i]) == LowerChar(s[i])
  {
    seq(|s|, i requires 0 <= i < |s| => UpperChar(s[i]))
  }

  /** The `lowercase` transformer, on the ASCII letters. */
  function Lower(s: string): (r: string)
    ensures |r| == |s|
    ensures forall i | 0 <= i < |r| :: !IsUpperAscii(r[i])
    ensures forall i | 0 <= i < |r| :: UpperChar(r[i]) == UpperChar(s[i])
  {
    seq(|s|, i requires 0 <= i < |s| => LowerChar(s[i]))
  }

  /** Re-applying a case transformer (as `onChange` does on every keystroke) changes nothing. */
  lemma CaseTransformersIdempotent(s: string)
    ensures Upper(Upper(s)) == Upper(s)
    ensures Lower(Lower(s)) == Lower(s)
    ensures Upper(Lower(s)) == Upper(s)
    ensures Lower(Upper(s)) == Lower(s)
  {
  }

  /** `transformerRules[key](value)`; `None` when the key is unknown and the call throws. */
  function TransformerRule(key: string, value: string): (r: Option<string>)
    ensures r.None? <==> key != "uppercase" && key != "lowercase"
    ensures key == "uppercase" ==> r == Some(Upper(value))
    ensures key == "lowercase" ==> r == Some(Lower(value))
    ensures r.Some? ==> |r.value| == |value|
  {
    if key == "uppercase" then Some(Upper(value))
    else if key == "lowercase" then Some(Lower(value))
    else None
  }

  // ------------------------------------------------------------- validators

  /**
    The `required` validator. Objects (including arrays and `null`) are first
    replaced by their key list, and `Object.keys(null)` throws.
  */
  function Required(value: JsValue): (r: Outcome)
    ensures r.Threw? <==> value.Null?
    ensures value.Str? ==> (r == Returned(true) <==> value.s != "")
    ensures value.Arr? ==> (r == Returned(true) <==> |value.elems| > 0)
    ensures value.Obj? ==> (r == Returned(true) <==> |value.props| > 0)
    ensures value.Undef? ==> r == Returned(false)
    ensures value.Num? || value.Bool? ==> r == Returned(true)
  {
    match value
    case Null => Threw
    case Obj(m) => Returned(|m.Keys| > 0)
    case Arr(es) => Returned(|es| > 0)
    case Str(s) => Returned(|s| > 0)
    case _ => Returned(!Nullish(value))
  }

  /** `required` on each kind of empty and non-empty value, `null` included. */
  lemma RequiredExamples()
    ensures Required(Str("")) == Returned(false)
    ensures Required(Arr([])) == Returned(false)
    ensures Required(Obj(map[])) == Returned(false)
    ensures Required(Undef) == Returned(false)
    ensures Required(Null) == Threw
    ensures Required(Str("a")) == Returned(true)
    ensures Required(Arr([Num(1)])) == Returned(true)
    ensures Required(Num(0)) == Returned(true)
    ensures Required(Bool(false)) == Returned(true)
  {
    var empty: map<string, JsValue> := map[];
    assert |empty.Keys| == 0;
  }

  /**
    The `match` validator: `base.item` throws when the rule came without a
    descriptor (`base` is `null`); otherwise the current form must own the
    key `item` (converted to a property key) and hold a value loosely equal
    to `value`.
  */
  function Match(e: Engine, form: Record, value: JsValue, base: Option<Record>): (r: Outcome)
    ensures r.Threw? <==> base.None?
    ensures base.Some? ==>
      (r == Returned(true) <==>
        var key := ToJsString(Lookup(base.value, "item"));
        key in form && e.looseEq(form[key], value))
  {
    match base
    case None => Threw
    case Some(b) =>
      var key := ToJsString(Lookup(b, "item"));
      Returned(key in form && e.looseEq(form[key], value))
  }

  /**
    With a standard `==`, `match` on text typed into a field compares it with
    the text stored under `item`.
  */
  lemma MatchStrings(e: Engine, form: Record, item: string, value: string, base: Record)
    requires Standard(e)
    requires Lookup(base, "item") == Str(item)
    requires item in form ==> form[item].Str?
    ensures Match(e, form, Str(value), Some(base)) == Returned(true)
      <==> item in form && form[item] == Str(value)
  {
  }

  /** The `email` validator: any falsy value passes, otherwise the e-mail pattern decides. */
  function Email(e: Engine, value: JsValue): (r: Outcome)
    ensures r.Returned?
    ensures !Truthy(value) ==> r.ok
    ensures Truthy(value) ==> (r.ok <==> e.emailTest(ToJsString(value)))
  {
    Returned(!Truthy(value) || e.emailTest(ToJsString(value)))
  }

  /**
    The `size` validator: `null` and `undefined` fail; otherwise the value's
    `length` is compared with `base.lengthChar`, which throws when the rule
    came without a descriptor.
  */
  function Size(e: Engine, value: JsValue, base: Option<Record>): (r: Outcome)
    ensures Nullish(value) ==> r == Returned(false)
    ensures !Nullish(value) ==> (r.Threw? <==> base.None?)
    ensures !Nullish(value) && base.Some? ==>
      (r == Returned(true) <==> !e.lessThan(LengthOf(value), Lookup(base.value, "lengthChar")))
  {
    if Nullish(value) then Returned(false)
    else match base
      case None => Threw
      case Some(b) => Returned(!e.lessThan(LengthOf(value), Lookup(b, "lengthChar")))
  }

  /** With a numeric `lengthChar` and a standard `<`, `size` passes a string exactly when it is long enough. */
  lemma SizeOfString(e: Engine, s: string, base: Record, n: int)
    requires Standard(e)
    requires Lookup(base, "lengthChar") == Num(n)
    ensures Size(e, Str(s), Some(base)) == Returned(|s| >= n)
  {
  }

  /** The `decimal` validator's pattern `/^$|^\d+$|^\.\d+|^\d+\.\d+$/`; the `^\.\d+` branch has no end anchor. */
  predicate DecimalPattern(s: string) {
    || s == ""
    || (|s| > 0 && AllDigits(s))
    || (|s| >= 2 && s[0] == '.' && IsDigit(s[1]))
    || (exists i | 1 <= i < |s| - 1 :: s[i] == '.' && AllDigits(s[..i]) && AllDigits(s[i + 1..]))
  }

  /** The `decimal` validator: any falsy value passes, otherwise the value's string form must match. */
  function DecimalValidator(value: JsValue): (r: Outcome)
    ensures r.Returned?
    ensures !Truthy(value) ==> r.ok
    ensures Truthy(value) ==> (r.ok <==> DecimalPattern(ToJsString(value)))
  {
    Returned(!Truthy(value) || DecimalPattern(ToJsString(value)))
  }

  /** Trailing characters after a leading ".digit" are never looked at. */
  lemma DecimalValidatorUnanchored()
    ensures DecimalValidator(Str(".5x")) == Returned(true)
    ensures DecimalValidator(Str("1.5")) == Returned(true)
    ensures DecimalValidator(Str("1.5x")) == Returned(false)
    ensures DecimalValidator(Str("1.2.3")) == Returned(false)
  {
    assert DecimalPattern("1.5") by {
      assert "1.5"[1] == '.' && AllDigits("1.5"[..1]) && AllDigits("1.5"[2..]);
    }
    assert !DecimalPattern("1.5x") by {
      assert !AllDigits("1.5x") by { assert !IsDigit("1.5x"[3]); }
      forall i | 1 <= i < 3 && "1.5x"[i] == '.'
        ensures !AllDigits("1.5x"[i + 1..])
      {
        assert i == 1;
        assert "1.5x"[2..][1] == 'x';
      }
    }
    assert !DecimalPattern("1.2.3") by {
      assert !AllDigits("1.2.3") by { assert !IsDigit("1.2.3"[1]); }
      forall i | 1 <= i < 4 && "1.2.3"[i] == '.'
        ensures !(AllDigits("1.2.3"[..i]) && AllDigits("1.2.3"[i + 1..]))
      {
        if i == 1 {
          assert "1.2.3"[2..][1] == '.';
        } else {
          assert i == 3;
          assert "1.2.3"[..3][1] == '.';
        }
      }
    }
  }

  /**
    A number passes the `decimal` validator exactly when it is not negative:
    `0` is falsy, and a positive integer prints as digits only, while a
    negative one starts with '-'.
  */
  lemma DecimalValidatorOnNumbers(n: int)
    ensures DecimalValidator(Num(n)) == Returned(n >= 0)
  {
    IntToStringDigits(n);
    var s := IntToString(n);
    if n < 0 {
      assert s[0] == '-';
      assert !(|s| > 0 && AllDigits(s));
      assert !(|s| >= 2 && s[0] == '.');
      forall i | 1 <= i < |s| - 1
        ensures !AllDigits(s[..i])
      {
        assert s[..i][0] == '-';
      }
    }
  }

  /** The validator names the registry holds. */
  predicate IsValidatorName(key: string) {
    key in {"required", "match", "email", "size", "decimal"}
  }

  /**
    `validationRules[key](value, base)`: an unknown key calls `undefined`,
    which throws.
  */
  function Validator(e: Engine, form: Record, key: string, value: JsValue, base: Option<Record>): (r: Outcome)
    ensures !IsValidatorName(key) ==> r.Threw?
    ensures key == "required" ==> r == Required(value)
    ensures key == "match" ==> r == Match(e, form, value, base)
    ensures key == "email" ==> r == Email(e, value)
    ensures key == "size" ==> r == Size(e, value, base)
    ensures key == "decimal" ==> r == DecimalValidator(value)
  {
    if key == "required" then Required(value)
    else if key == "match" then Match(e, form, value, base)
    else if key == "email" then Email(e, value)
    else if key == "size" then Size(e, value, base)
    else if key == "decimal" then DecimalValidator(value)
    else Threw
  }
}

=== FILE: schema.dfy ===
/**
  The component's state and the form schema it renders: field descriptors,
  possibly grouped one level deep into rows, and the flattening that makes
  rows transparent.
*/
module Schema {
  import opened Wrappers
  import opened JsValues
  import opened Dispatch

  /**
    The component state the engine reads and writes: stored values
    (`form`), the error map (`validationErrors`), anonymised input names
    (`randomisedFields`) and the names of the renderable fields (`canRender`).
  */
  datatype FormState = FormState(
    form: Record,
    validationErrors: Record,
    randomisedFields: map<string, string>,
    canRender: seq<string>)

  /**
    A field descriptor, as far as the engine reads it. `None` stands for an
    absent (or falsy) key; `renderIf` is present only when it is a function;
    `autocompleteOff` is `autocomplete === false`.
  */
  datatype Field = Field(
    name: string,
    inputType: string,
    filter: Option<FilterSpec>,
    onChange: Option<TransformerSpec>,
    onBlur: Option<TransformerSpec>,
    validationRules: Option<Rules>,
    renderIf: Option<FormState -> bool>,
    autocompleteOff: bool)

  /** One element of the schema array: a field, or a row (an array of fields). */
  datatype Entry = Single(field: Field) | Row(fields: seq<Field>)

  type Form = seq<Entry>

  /** `flatten(form)`: the schema flattened one level, rows spliced in place. */
  function Flatten(schema: Form): seq<Field> {
    if |schema| == 0 then []
    else
      (match schema[0]
       case Single(f) => [f]
       case Row(fs) => fs)
      + Flatten(schema[1..])
  }

  /** Flattening distributes over concatenation of schemas. */
  lemma {:induction false} FlattenAppend(a: Form, b: Form)
    ensures Flatten(a + b) == Flatten(a) + Flatten(b)
  {
    if |a| > 0 {
      assert (a + b)[1..] == a[1..] + b;
      FlattenAppend(a[1..], b);
    } else {
      assert a + b == b;
    }
  }

  /** A single field flattens to itself, a row to its fields, in order. */
  lemma FlattenUnits(f: Field, fs: seq<Field>)
    ensures Flatten([Single(f)]) == [f]
    ensures Flatten([Row(fs)]) == fs
  {
  }

  /** The names of a sequence of fields, in order. */
  function Names(fs: seq<Field>): (ns: seq<string>)
    ensures |ns| == |fs|
    ensures forall i | 0 <= i < |fs| :: ns[i] == fs[i].name
  {
    seq(|fs|, i requires 0 <= i < |fs| => fs[i].name)
  }

  /** Field names are unique, as the schema requires. */
  predicate UniqueNames(fs: seq<Field>) {
    forall i, j | 0 <= i < j < |fs| :: fs[i].name != fs[j].name
  }

  /** A string rule equal to "" is falsy and counts as no rules at all. */
  predicate IsEmptyStringRule(rules: Rules) {
    rules.One? && rules.rule.KeyRule? && rules.rule.key == ""
  }

  /** `if (input.validationRules)`. */
  predicate HasRules(f: Field) {
    f.validationRules.Some? && !IsEmptyStringRule(f.validationRules.value)
  }

  /** `if (input.transformer && input.transformer.onChange)` (resp. `onBlur`): "" is falsy. */
  predicate GivenTransformer(t: Option<TransformerSpec>) {
    t.Some? && !(t.value.KeyTransformer? && t.value.key == "")
  }
}

=== FILE: validation.dfy ===
/**
  The validation engine: whole-form validation over the full prop schema
  (`validateForm`), single-field validation against the error state
  (`applyValidation`, with its silent mode), and the error a field displays
  (`getInputValidationError`).
*/
module Validation {
  import opened Wrappers
  import opened JsValues
  import opened Dispatch
  import opened Schema

  /** `validateForm`'s pair `[valid, validationErrors]`. */
  datatype FormCheck = FormCheck(valid: bool, errors: Record)

  /** A rule-carrying field validated on the value stored for it. */
  function FieldCheck(e: Engine, form: Record, f: Field): FieldResult
    requires HasRules(f)
  {
    ValidateInput(e, form, f.name, Lookup(form, f.name), f.validationRules.value)
  }

  /** The `forEach` of `validateForm`: rule-less fields are skipped, each result is merged in. */
  function ValidateFields(e: Engine, fs: seq<Field>, form: Record, acc: FormCheck): FormCheck
    decreases |fs|
  {
    if |fs| == 0 then acc
    else
      var acc' :=
        if HasRules(fs[0]) then
          var r := FieldCheck(e, form, fs[0]);
          FormCheck(acc.valid && r.valid, acc.errors[fs[0].name := r.entry])
        else acc;
      ValidateFields(e, fs[1..], form, acc')
  }

  /** `validateForm()`: every field of the prop schema, hidden or not, against the stored values. */
  function ValidateForm(e: Engine, schema: Form, st: FormState): FormCheck {
    ValidateFields(e, Flatten(schema), st.form, FormCheck(true, st.validationErrors))
  }

  /** Every rule-carrying field validates on the value stored for it. */
  predicate AllFieldsValid(e: Engine, form: Record, fs: seq<Field>) {
    forall i | 0 <= i < |fs| && HasRules(fs[i]) :: FieldCheck(e, form, fs[i]).valid
  }

  /** The names of the rule-carrying fields. */
  function RuleNames(fs: seq<Field>): set<string> {
    set i | 0 <= i < |fs| && HasRules(fs[i]) :: fs[i].name
  }

  lemma RuleNamesTail(fs: seq<Field>)
    requires |fs| > 0
    ensures RuleNames(fs) == (if HasRules(fs[0]) then {fs[0].name} else {}) + RuleNames(fs[1..])
  {
    var rest := fs[1..];
    forall x | x in RuleNames(rest) ensures x in RuleNames(fs) {
      var i :| 0 <= i < |rest| && HasRules(rest[i]) && rest[i].name == x;
      assert fs[i + 1] == rest[i];
    }
    forall x | x in RuleNames(fs) && x != fs[0].name ensures x in RuleNames(rest) {
      var i :| 0 <= i < |fs| && HasRules(fs[i]) && fs[i].name == x;
      assert rest[i - 1] == fs[i];
    }
  }

  lemma {:induction false} ValidateFieldsValidity(e: Engine, fs: seq<Field>, form: Record, acc: FormCheck)
    ensures var r := ValidateFields(e, fs, form, acc);
      && (r.valid <==> acc.valid && AllFieldsValid(e, form, fs))
      && r.errors.Keys == acc.errors.Keys + RuleNames(fs)
      && (forall k | k in acc.errors && k !in RuleNames(fs) :: r.errors[k] == acc.errors[k])
  {
    if |fs| > 0 {
      var acc' :=
        if HasRules(fs[0]) then
          var r := FieldCheck(e, form, fs[0]);
          FormCheck(acc.valid && r.valid, acc.errors[fs[0].name := r.entry])
        else acc;
      ValidateFieldsValidity(e, fs[1..], form, acc');
      RuleNamesTail(fs);
      var rest := fs[1..];
      assert forall i | 0 <= i < |rest| :: rest[i] == fs[i + 1];
      if acc.valid && forall i | 0 <= i < |fs| && HasRules(fs[i]) :: FieldCheck(e, form, fs[i]).valid {
        forall i | 0 <= i < |rest| && HasRules(rest[i]) ensures FieldCheck(e, form, rest[i]).valid {
          assert rest[i] == fs[i + 1];
        }
      }
      if acc'.valid && forall i | 0 <= i < |rest| && HasRules(rest[i]) :: FieldCheck(e, form, rest[i]).valid {
        forall i | 0 <= i < |fs| && HasRules(fs[i]) ensures FieldCheck(e, form, fs[i]).valid {
          if i > 0 { assert fs[i] == rest[i - 1]; }
        }
      }
    }
  }

  lemma {:induction false} ValidateFieldsEntries(e: Engine, fs: seq<Field>, form: Record, acc: FormCheck, i: int)
    requires UniqueNames(fs)
    requires 0 <= i < |fs| && HasRules(fs[i])
    ensures var r := ValidateFields(e, fs, form, acc);
      fs[i].name in r.errors && r.errors[fs[i].name] == FieldCheck(e, form, fs[i]).entry
  {
    var acc' :=
      if HasRules(fs[0]) then
        var r := FieldCheck(e, form, fs[0]);
        FormCheck(acc.valid && r.valid, acc.errors[fs[0].name := r.entry])
      else acc;
    var rest := fs[1..];
    assert UniqueNames(rest);
    if i == 0 {
      ValidateFieldsValidity(e, rest, form, acc');
      forall j | 0 <= j < |rest| ensures rest[j].name != fs[0].name {
        assert fs[j + 1] == rest[j];
      }
      assert fs[0].name !in RuleNames(rest);
    } else {
      assert rest[i - 1] == fs[i];
      ValidateFieldsEntries(e, rest, form, acc', i - 1);
    }
  }

  /**
    `validateForm` is valid iff every rule-carrying field of the full prop
    schema (hidden ones included) validates on its stored value; its map is
    the prior error map overlaid with one entry per rule-carrying field,
    and, when names are unique, that entry is the field's own result.
  */
  lemma ValidateFormSpec(e: Engine, schema: Form, st: FormState)
    ensures ValidateForm(e, schema, st).valid <==> AllFieldsValid(e, st.form, Flatten(schema))
    ensures ValidateForm(e, schema, st).errors.Keys == st.validationErrors.Keys + RuleNames(Flatten(schema))
    ensures forall k | k in st.validationErrors && k !in RuleNames(Flatten(schema)) ::
      ValidateForm(e, schema, st).errors[k] == st.validationErrors[k]
    ensures UniqueNames(Flatten(schema)) ==>
      forall i | 0 <= i < |Flatten(schema)| && HasRules(Flatten(schema)[i]) ::
        ValidateForm(e, schema, st).errors[Flatten(schema)[i].name] == FieldCheck(e, st.form, Flatten(schema)[i]).entry
  {
    var fs := Flatten(schema);
    var init := FormCheck(true, st.validationErrors);
    ValidateFieldsValidity(e, fs, st.form, init);
    if UniqueNames(fs) {
      forall i | 0 <= i < |fs| && HasRules(fs[i])
        ensures ValidateForm(e, schema, st).errors[fs[i].name] == FieldCheck(e, st.form, fs[i]).entry
      {
        ValidateFieldsEntries(e, fs, st.form, init, i);
      }
    }
  }

  /**
    `getInputValidationError`: the local entry when it is an actual message
    (truthy and not `true`), otherwise the host's `formErrors` entry.
  */
  function GetInputValidationError(errors: Record, formErrors: Record, name: string): JsValue {
    var local := Lookup(errors, name);
    if Truthy(local) && local != Bool(true) then local else Lookup(formErrors, name)
  }

  /**
    After `validateForm`, a rule-carrying field displays the message of its
    last failing rule when that message is truthy and not `true`; when the
    field is valid, or its last failure carries no such message, the
    host-supplied error shows instead.
  */
  lemma DisplayedErrorAfterValidation(e: Engine, schema: Form, st: FormState, formErrors: Record, i: int)
    requires UniqueNames(Flatten(schema))
    requires 0 <= i < |Flatten(schema)| && HasRules(Flatten(schema)[i])
    ensures var f := Flatten(schema)[i];
      var shown := GetInputValidationError(ValidateForm(e, schema, st).errors, formErrors, f.name);
      var vs := Verdicts(e, st.form, f.name, Lookup(st.form, f.name), RuleList(f.validationRules.value));
      && ((forall j | 0 <= j < |vs| :: vs[j].Pass?) ==> shown == Lookup(formErrors, f.name))
      && (forall j | LastFailureAt(vs, j) ::
            shown == if Truthy(vs[j].message) && vs[j].message != Bool(true) then vs[j].message
                     else Lookup(formErrors, f.name))
  {
    var f := Flatten(schema)[i];
    ValidateFormSpec(e, schema, st);
    ValidateInputSpec(e, st.form, f.name, Lookup(st.form, f.name), f.validationRules.value);
  }

  /** `applyValidation`'s merged error map, and whether it is committed to the state. */
  datatype Applied = Applied(merged: Record, commit: bool)

  /**
    `applyValidation(event, rules, onlyValid)`: validates the raw event value
    and files the entry under `key`. In silent mode (`onlyValid`) the merged
    map is committed only when the field is valid; it is returned either way.
  */
  function ApplyValidation(e: Engine, st: FormState, key: string, raw: string, rules: Rules, onlyValid: bool): (a: Applied)
    ensures var res := ValidateInput(e, st.form, key, Str(raw), rules);
      && (a.commit <==> !onlyValid || res.valid)
      && a.merged.Keys == st.validationErrors.Keys + {key}
      && a.merged[key] == res.entry
      && (forall k | k in st.validationErrors && k != key :: a.merged[k] == st.validationErrors[k])
  {
    var res := ValidateInput(e, st.form, key, Str(raw), rules);
    Applied(st.validationErrors[key := res.entry], !onlyValid || res.valid)
  }
}

=== FILE: visibility.dfy ===
/**
  The field visibility resolver (`getDerivedStateFromProps`): over the
  flattened schema it recomputes `canRender`, discards the values and errors
  of hidden fields, and keeps anonymised names for fields with
  `autocomplete: false`. `Math.random` is replaced by `draw`, the token the
  random source would produce for a field.
*/
module Visibility {
  import opened Wrappers
  import opened JsValues
  import opened Schema

  /** `typeof renderIf !== 'function' || renderIf(state)`. */
  predicate Shown(f: Field, st: FormState) {
    f.renderIf.None? || f.renderIf.value(st)
  }

  /** `!!randomisedFields[name]`: a token is present and non-empty. */
  predicate HasToken(tokens: map<string, string>, name: string) {
    name in tokens && tokens[name] != ""
  }

  /** The token an `autocomplete: false` field ends up with: its own if it has one, else a fresh one. */
  function TokenFor(tokens: map<string, string>, name: string, draw: string -> string): string {
    if HasToken(tokens, name) then tokens[name] else draw(name)
  }

  /** The recomputed state, and the fields (in order) for which a new token was drawn. */
  datatype Derived = Derived(state: FormState, minted: seq<string>)

  /** One iteration of the `forEach`; `incoming` is the state `renderIf` is asked about. */
  function DeriveField(f: Field, incoming: FormState, draw: string -> string, acc: Derived): Derived {
    var s := acc.state;
    var s1 :=
      if Shown(f, incoming) then s.(canRender := s.canRender + [f.name])
      else s.(form := s.form - {f.name}, validationErrors := s.validationErrors - {f.name});
    if f.autocompleteOff then
      if HasToken(s1.randomisedFields, f.name) then Derived(s1, acc.minted)
      else Derived(s1.(randomisedFields := s1.randomisedFields[f.name := draw(f.name)]), acc.minted + [f.name])
    else
      Derived(s1.(randomisedFields := s1.randomisedFields - {f.name}), acc.minted)
  }

  function DeriveFields(fs: seq<Field>, incoming: FormState, draw: string -> string, acc: Derived): Derived
    decreases |fs|
  {
    if |fs| == 0 then acc
    else DeriveFields(fs[1..], incoming, draw, DeriveField(fs[0], incoming, draw, acc))
  }

  /** `getDerivedStateFromProps({form: schema}, st)`. */
  function DeriveState(schema: Form, st: FormState, draw: string -> string): Derived {
    DeriveFields(Flatten(schema), st, draw, Derived(st.(canRender := []), []))
  }

  // ---------------------------------------------------------- reference sets

  /** The names of the shown fields, in schema order. */
  function VisibleNames(fs: seq<Field>, st: FormState): seq<string> {
    if |fs| == 0 then []
    else (if Shown(fs[0], st) then [fs[0].name] else []) + VisibleNames(fs[1..], st)
  }

  /** The names of the hidden fields. */
  function HiddenNames(fs: seq<Field>, st: FormState): set<string> {
    if |fs| == 0 then {}
    else (if Shown(fs[0], st) then {} else {fs[0].name}) + HiddenNames(fs[1..], st)
  }

  lemma {:induction false} VisibleNamesMembers(fs: seq<Field>, st: FormState, x: string)
    ensures x in VisibleNames(fs, st) <==> exists i | 0 <= i < |fs| :: fs[i].name == x && Shown(fs[i], st)
  {
    if |fs| > 0 {
      VisibleNamesMembers(fs[1..], st, x);
      if exists i | 0 <= i < |fs| :: fs[i].name == x && Shown(fs[i], st) {
        var i :| 0 <= i < |fs| && fs[i].name == x && Shown(fs[i], st);
        if i > 0 { assert fs[1..][i - 1] == fs[i]; }
      }
      if exists i | 0 <= i < |fs| - 1 :: fs[1..][i].name == x && Shown(fs[1..][i], st) {
        var i :| 0 <= i < |fs| - 1 && fs[1..][i].name == x && Shown(fs[1..][i], st);
        assert fs[i + 1] == fs[1..][i];
      }
    }
  }

  lemma {:induction false} HiddenNamesMembers(fs: seq<Field>, st: FormState, x: string)
    ensures x in HiddenNames(fs, st) <==> exists i | 0 <= i < |fs| :: fs[i].name == x && !Shown(fs[i], st)
  {
    if |fs| > 0 {
      HiddenNamesMembers(fs[1..], st, x);
      if exists i | 0 <= i < |fs| :: fs[i].name == x && !Shown(fs[i], st) {
        var i :| 0 <= i < |fs| && fs[i].name == x && !Shown(fs[i], st);
        if i > 0 { assert fs[1..][i - 1] == fs[i]; }
      }
      if exists i | 0 <= i < |fs| - 1 :: fs[1..][i].name == x && !Shown(fs[1..][i], st) {
        var i :| 0 <= i < |fs| - 1 && fs[1..][i].name == x && !Shown(fs[1..][i], st);
        assert fs[i + 1] == fs[1..][i];
      }
    }
  }

  /** Visibility is decided field by field: states on which every `renderIf` agrees give the same sets. */
  lemma {:induction false} SameOutcomesSameNames(fs: seq<Field>, a: FormState, b: FormState)
    requires forall i | 0 <= i < |fs| :: Shown(fs[i], a) == Shown(fs[i], b)
    ensures VisibleNames(fs, a) == VisibleNames(fs, b)
    ensures HiddenNames(fs, a) == HiddenNames(fs, b)
  {
    if |fs| > 0 {
      assert Shown(fs[0], a) == Shown(fs[0], b);
      forall i | 0 <= i < |fs| - 1 ensures Shown(fs[1..][i], a) == Shown(fs[1..][i], b) {
        assert fs[1..][i] == fs[i + 1];
      }
      SameOutcomesSameNames(fs[1..], a, b);
    }
  }

  // ------------------------------------------------------------ fold lemmas

  lemma {:induction false} DeriveFieldsCanRender(fs: seq<Field>, incoming: FormState, draw: string -> string, acc: Derived)
    ensures DeriveFields(fs, incoming, draw, acc).state.canRender
      == acc.state.canRender + VisibleNames(fs, incoming)
  {
    if |fs| > 0 {
      var acc' := DeriveField(fs[0], incoming, draw, acc);
      DeriveFieldsCanRender(fs[1..], incoming, draw, acc');
    }
  }

  lemma {:induction false} DeriveFieldsPrunes(fs: seq<Field>, incoming: FormState, draw: string -> string, acc: Derived)
    ensures var r := DeriveFields(fs, incoming, draw, acc).state;
      && r.form == acc.state.form - HiddenNames(fs, incoming)
      && r.validationErrors == acc.state.validationErrors - HiddenNames(fs, incoming)
  {
    if |fs| > 0 {
      var acc' := DeriveField(fs[0], incoming, draw, acc);
      DeriveFieldsPrunes(fs[1..], incoming, draw, acc');
      var h0: set<string> := if Shown(fs[0], incoming) then {} else {fs[0].name};
      assert acc'.state.form == acc.state.form - h0;
      assert acc'.state.validationErrors == acc.state.validationErrors - h0;
      assert HiddenNames(fs, incoming) == h0 + HiddenNames(fs[1..], incoming);
    }
  }

  /** One iteration touches the token of its own field only. */
  lemma DeriveFieldTokens(f: Field, incoming: FormState, draw: string -> string, acc: Derived)
    ensures var r := DeriveField(f, incoming, draw, acc);
      var before := acc.state.randomisedFields;
      var after := r.state.randomisedFields;
      && (forall k | k != f.name :: (k in after <==> k in before) && (k in after ==> after[k] == before[k]))
      && (f.autocompleteOff ==> f.name in after && after[f.name] == TokenFor(before, f.name, draw))
      && (!f.autocompleteOff ==> f.name !in after)
      && r.minted == acc.minted + (if f.autocompleteOff && !HasToken(before, f.name) then [f.name] else [])
  {
  }

  lemma {:induction false} NamesTail(fs: seq<Field>, k: string)
    requires |fs| > 0
    ensures k in Names(fs) <==> k == fs[0].name || k in Names(fs[1..])
  {
    if k in Names(fs[1..]) {
      var j :| 0 <= j < |fs| - 1 && Names(fs[1..])[j] == k;
      assert Names(fs)[j + 1] == k;
    }
    if k in Names(fs) && k != fs[0].name {
      var j :| 0 <= j < |fs| && Names(fs)[j] == k;
      assert Names(fs[1..])[j - 1] == k;
    }
  }

  /** Tokens of names outside the field list are left alone. */
  lemma {:induction false} DeriveFieldsTokensUntouched(fs: seq<Field>, incoming: FormState, draw: string -> string,
                                                       acc: Derived, k: string)
    requires k !in Names(fs)
    ensures var before := acc.state.randomisedFields;
      var after := DeriveFields(fs, incoming, draw, acc).state.randomisedFields;
      (k in after <==> k in before) && (k in after ==> after[k] == before[k])
  {
    if |fs| > 0 {
      NamesTail(fs, k);
      DeriveFieldTokens(fs[0], incoming, draw, acc);
      DeriveFieldsTokensUntouched(fs[1..], incoming, draw, DeriveField(fs[0], incoming, draw, acc), k);
    }
  }

  lemma UniqueTail(fs: seq<Field>)
    requires |fs| > 0 && UniqueNames(fs)
    ensures UniqueNames(fs[1..])
    ensures fs[0].name !in Names(fs[1..])
  {
    forall j | 0 <= j < |fs| - 1
      ensures Names(fs[1..])[j] != fs[0].name
    {
      assert fs[1..][j] == fs[j + 1];
    }
  }

  /** With unique names, the token of the i-th field is decided by that field alone. */
  lemma {:induction false} DeriveFieldsTokenOf(fs: seq<Field>, incoming: FormState, draw: string -> string,
                                               acc: Derived, i: int)
    requires UniqueNames(fs)
    requires 0 <= i < |fs|
    ensures var before := acc.state.randomisedFields;
      var after := DeriveFields(fs, incoming, draw, acc).state.randomisedFields;
      && (fs[i].autocompleteOff ==> fs[i].name in after && after[fs[i].name] == TokenFor(before, fs[i].name, draw))
      && (!fs[i].autocompleteOff ==> fs[i].name !in after)
  {
    UniqueTail(fs);
    var acc' := DeriveField(fs[0], incoming, draw, acc);
    DeriveFieldTokens(fs[0], incoming, draw, acc);
    if i == 0 {
      DeriveFieldsTokensUntouched(fs[1..], incoming, draw, acc', fs[0].name);
    } else {
      assert fs[1..][i - 1] == fs[i];
      assert fs[i].name != fs[0].name by {
        assert Names(fs[1..])[i - 1] == fs[i].name;
      }
      DeriveFieldsTokenOf(fs[1..], incoming, draw, acc', i - 1);
    }
  }

  /** With unique names, a token is drawn exactly for the `autocomplete: false` fields that had none. */
  lemma {:induction false} DeriveFieldsMinted(fs: seq<Field>, incoming: FormState, draw: string -> string,
                                              acc: Derived, k: string)
    requires UniqueNames(fs)
    ensures var r := DeriveFields(fs, incoming, draw, acc);
      k in r.minted <==>
        k in acc.minted
        || exists i | 0 <= i < |fs| :: fs[i].autocompleteOff && fs[i].name == k && !HasToken(acc.state.randomisedFields, k)
  {
    if |fs| > 0 {
      UniqueTail(fs);
      var f := fs[0];
      var rest := fs[1..];
      var acc' := DeriveField(f, incoming, draw, acc);
      DeriveFieldTokens(f, incoming, draw, acc);
      DeriveFieldsMinted(rest, incoming, draw, acc', k);
      var before := acc.state.randomisedFields;
      var mid := acc'.state.randomisedFields;
      if exists i | 0 <= i < |fs| :: fs[i].autocompleteOff && fs[i].name == k && !HasToken(before, k) {
        var i :| 0 <= i < |fs| && fs[i].autocompleteOff && fs[i].name == k && !HasToken(before, k);
        if i > 0 {
          assert rest[i - 1] == fs[i];
          assert k != f.name by { assert Names(rest)[i - 1] == k; }
          assert !HasToken(mid, k);
        }
      }
      if exists i | 0 <= i < |rest| :: rest[i].autocompleteOff && rest[i].name == k && !HasToken(mid, k) {
        var i :| 0 <= i < |rest| && rest[i].autocompleteOff && rest[i].name == k && !HasToken(mid, k);
        assert fs[i + 1] == rest[i];
        assert k != f.name by { assert Names(rest)[i] == k; }
        assert !HasToken(before, k);
      }
    }
  }

  // --------------------------------------------------------------- the pass

  /**
    After the pass, `canRender` lists, in flattened schema order, exactly the
    fields whose `renderIf` is absent or true of the incoming state; hidden
    fields lose their value and error keys and every other key is kept as it
    was.
  */
  lemma DeriveStateVisibility(schema: Form, st: FormState, draw: string -> string)
    ensures var fs := Flatten(schema);
      var r := DeriveState(schema, st, draw).state;
      && r.canRender == VisibleNames(fs, st)
      && (forall x :: x in r.canRender <==> exists i | 0 <= i < |fs| :: fs[i].name == x && Shown(fs[i], st))
      && r.form == st.form - HiddenNames(fs, st)
      && r.validationErrors == st.validationErrors - HiddenNames(fs, st)
      && (forall x :: x in HiddenNames(fs, st) <==> exists i | 0 <= i < |fs| :: fs[i].name == x && !Shown(fs[i], st))
  {
    var fs := Flatten(schema);
    var init := Derived(st.(canRender := []), []);
    DeriveFieldsCanRender(fs, st, draw, init);
    DeriveFieldsPrunes(fs, st, draw, init);
    forall x ensures x in VisibleNames(fs, st) <==> exists i | 0 <= i < |fs| :: fs[i].name == x && Shown(fs[i], st) {
      VisibleNamesMembers(fs, st, x);
    }
    forall x ensures x in HiddenNames(fs, st) <==> exists i | 0 <= i < |fs| :: fs[i].name == x && !Shown(fs[i], st) {
      HiddenNamesMembers(fs, st, x);
    }
  }

  /**
    Anonymised names, for a schema with unique names: an `autocomplete: false`
    field keeps its token, even while hidden, and draws a new one only when
    it has none; every other schema field loses its token; tokens of names
    outside the schema are untouched. A token is drawn exactly for the
    `autocomplete: false` fields that had none.
  */
  lemma DeriveStateTokens(schema: Form, st: FormState, draw: string -> string)
    requires UniqueNames(Flatten(schema))
    ensures var fs := Flatten(schema);
      var d := DeriveState(schema, st, draw);
      var after := d.state.randomisedFields;
      && (forall k | k !in Names(fs) ::
            (k in after <==> k in st.randomisedFields) && (k in after ==> after[k] == st.randomisedFields[k]))
      && (forall i | 0 <= i < |fs| && fs[i].autocompleteOff ::
            fs[i].name in after && after[fs[i].name] == TokenFor(st.randomisedFields, fs[i].name, draw))
      && (forall i | 0 <= i < |fs| && !fs[i].autocompleteOff :: fs[i].name !in after)
      && (forall k :: k in d.minted <==>
            exists i | 0 <= i < |fs| :: fs[i].autocompleteOff && fs[i].name == k && !HasToken(st.randomisedFields, k))
  {
    var fs := Flatten(schema);
    var init := Derived(st.(canRender := []), []);
    forall k | k !in Names(fs) {
      DeriveFieldsTokensUntouched(fs, st, draw, init, k);
    }
    forall i | 0 <= i < |fs| {
      DeriveFieldsTokenOf(fs, st, draw, init, i);
    }
    forall k {
      DeriveFieldsMinted(fs, st, draw, init, k);
    }
  }

  /** The second pass leaves the anonymised names as the first pass left them, and draws none. */
  lemma RederiveTokens(schema: Form, st: FormState, draw: string -> string)
    requires UniqueNames(Flatten(schema))
    requires forall x :: draw(x) != ""
    ensures var once := DeriveState(schema, st, draw).state;
      var twice := DeriveState(schema, once, draw);
      twice.state.randomisedFields == once.randomisedFields && twice.minted == []
  {
    var fs := Flatten(schema);
    var once := DeriveState(schema, st, draw).state;
    var twice := DeriveState(schema, once, draw);
    var init1 := Derived(st.(canRender := []), []);
    var init2 := Derived(once.(canRender := []), []);
    var t1 := once.randomisedFields;
    var t2 := twice.state.randomisedFields;
    forall k ensures (k in t2 <==> k in t1) && (k in t2 ==> t2[k] == t1[k]) {
      if k !in Names(fs) {
        DeriveFieldsTokensUntouched(fs, once, draw, init2, k);
      } else {
        var i :| 0 <= i < |fs| && Names(fs)[i] == k;
        DeriveFieldsTokenOf(fs, st, draw, init1, i);
        DeriveFieldsTokenOf(fs, once, draw, init2, i);
      }
    }
    assert t2 == t1;
    if |twice.minted| > 0 {
      var k := twice.minted[0];
      DeriveFieldsMinted(fs, once, draw, init2, k);
      var i :| 0 <= i < |fs| && fs[i].autocompleteOff && fs[i].name == k && !HasToken(t1, k);
      DeriveFieldsTokenOf(fs, st, draw, init1, i);
      assert false;
    }
  }

  /**
    An `autocomplete: false` field without a token whose drawn token is empty
    (`Math.random().toString(36).substring(7)` is "" whenever the base-36
    text has at most seven characters) ends the pass with an empty token,
    which `!randomisedFields[name]` takes for a missing one: the next pass
    draws for it again.
  */
  lemma EmptyTokenRedrawn(schema: Form, st: FormState, draw: string -> string, i: int)
    requires UniqueNames(Flatten(schema))
    requires 0 <= i < |Flatten(schema)| && Flatten(schema)[i].autocompleteOff
    requires !HasToken(st.randomisedFields, Flatten(schema)[i].name)
    requires draw(Flatten(schema)[i].name) == ""
    ensures var once := DeriveState(schema, st, draw);
      && Flatten(schema)[i].name in once.minted
      && Flatten(schema)[i].name in DeriveState(schema, once.state, draw).minted
  {
    var fs := Flatten(schema);
    var once := DeriveState(schema, st, draw);
    DeriveStateTokens(schema, st, draw);
    DeriveStateTokens(schema, once.state, draw);
    assert !HasToken(once.state.randomisedFields, fs[i].name);
  }

  /**
    Re-running the pass on its own result, when every `renderIf` answers as it
    did the first time, changes nothing and draws no token (given that the
    random source never yields the empty token, which `!randomisedFields[name]`
    would take for a missing one).
  */
  lemma DeriveStateIdempotent(schema: Form, st: FormState, draw: string -> string)
    requires UniqueNames(Flatten(schema))
    requires forall x :: draw(x) != ""
    requires var fs := Flatten(schema);
      forall i | 0 <= i < |fs| :: Shown(fs[i], DeriveState(schema, st, draw).state) == Shown(fs[i], st)
    ensures var once := DeriveState(schema, st, draw).state;
      DeriveState(schema, once, draw) == Derived(once, [])
  {
    var fs := Flatten(schema);
    var once := DeriveState(schema, st, draw).state;
    var twice := DeriveState(schema, once, draw);
    DeriveStateVisibility(schema, st, draw);
    DeriveStateVisibility(schema, once, draw);
    SameOutcomesSameNames(fs, once, st);
    RederiveTokens(schema, st, draw);
    assert twice.state.form == once.form;
    assert twice.state.validationErrors == once.validationErrors;
    assert twice.state.canRender == once.canRender;
    assert twice.state == once;
  }
}

=== FILE: wrappers.dfy ===
/** Optional values, used for absent schema keys and for lookups that may miss. */
module Wrappers {

  datatype Option<+T> = None | Some(value: T) {

    /** The wrapped value, or `default` when there is none. */
    function GetOr(default: T): T {
      match this
      case Some(v) => v
      case None => default
    }
  }
}
